=== FILE: README.md ===
# Tic-tac-toe rules engine

This project models the rules engine of a tic-tac-toe REST service in Dafny. The engine lives inside the HTTP handlers of `controllers/game.controller.js`.

A board is a string of cells `X`, `O` and `-`, where `-` is empty. Four pieces of logic are modelled:

- **Creation.** `createNewGame` receives a board on which the player has made one move. The player's mark becomes the game's `userChoice`. The opponent's mark is written at a random index, and the game is stored as `RUNNING`.
- **Editing.** `editGame` receives the next board. It rejects the board with a reason string when one of these fails:
  - the format check;
  - the "did you move" check;
  - the "no replacing" check;
  - the "Move only once" check;
  - the turn check.

  It then classifies the board. If the game is still running, it writes the opponent's mark at a random index and classifies again.
- **Classification.** `getGameStatus` decides between `RUNNING`, `X_WON`, `O_WON` and `DRAW`. It counts the marks, and it looks for the eight winning triples as substrings of the concatenated decimal indices of each player's cells.
- **Index choice.** `generateMoveIndex` draws `Math.floor(Math.random() * 10)` until the draw is not excluded.

The model follows the code as written:

- The format regex `/[XO-]{9}/` is unanchored, so a board passes when any nine consecutive characters are cells.
- Win detection is a substring test.
- `DRAW` is returned for every nine-character board with five or more marks and no detected line.
- The random index can be 9. Writing index 9 on a nine-cell board appends a tenth cell.
- `editGame` never reads the stored status, so a finished game still accepts moves and its result can change.

Module `Intended` holds the corrected definitions. Module `Findings` proves where the two differ.

Modules:

- `Wrappers`: `Option` and `Result`.
- `Board`: cells, the format check, counting, stripping `-`, `indexOf`, and writing a cell (`SetAt`, which appends when the index equals the length, as a JavaScript array does).
- `GameStatusAsWritten`: `getGameStatus` as written, including the decimal index strings and `includes`.
- `Detection`: the lines of the 3×3 grid. It proves exactly when the substring test finds a line on boards of at most ten cells.
- `Classification`: for boards of at most ten cells, an exact characterisation of the status, soundness of reported wins, and completeness for rows only (a column or diagonal can be hidden, see `Classification.InterveningMarkHidesLine`).
- `Engine`: `createNewGame`, the checks of `editGame`, its transition, and `generateMoveIndex`.
- `Scenarios`: the request examples of the controller's test suite, stated on the model.
- `Intended`: the anchored format, line-based status, a generator restricted to 0..8, one-cell move validation, an edit that refuses finished games, and the lifecycle invariant.
- `Findings`: counterexamples to the code as written, and the corrected behaviour on the same inputs.

The randomness is a parameter `idx`. `Engine.CreateGame` and `Engine.EditGame` require `idx` to be a value `generateMoveIndex` can return: below 10 and not excluded. They require this only when the code actually calls it. `Engine.GenerateMoveIndex` unrolls the rejection loop over a finite sequence of draws.

## Model

| member | source | states |
|---|---|---|
| Board.MatchesBoardFormat | controllers/game.controller.js:103 | the loop returns true exactly when some nine consecutive characters of the board are all `X`, `O` or `-` (the unanchored regex) |
| Board.NineCellsIff | controllers/game.controller.js:170 | a string of at most nine characters passes the check exactly when it has nine characters, all of them cells; so `"-"` fails |
| Board.FormatOkSurrounded | controllers/game.controller.js:103 | any text before and after a passing board still passes: the check is not anchored |
| Board.FormatOkLength | controllers/game.controller.js:103 | a passing board has at least nine characters |
| Board.StripEmpty | controllers/game.controller.js:110 | removing every `-` leaves no `-`, keeps every other character with its multiplicity, and shortens the string by the number of `-` |
| Board.IndexOf | controllers/game.controller.js:121 | `indexOf` returns -1 exactly when the character is absent, otherwise its first position |
| Board.SetAt | controllers/game.controller.js:122 | assigning an array element overwrites inside the board and appends at index = length; only that cell changes, and the multiset of characters changes by exactly that cell |
| Board.FillCount | controllers/game.controller.js:238 | writing a mark into an empty (or appended) cell raises that mark's count by one and leaves every other count alone |
| Board.OpeningCounts | controllers/game.controller.js:110-117 | a board with one non-`-` character holds one copy of that mark and none of any other |
| Board.SingleMark | controllers/game.controller.js:110-121 | the single remaining character is at `indexOf` of itself, and every other cell is `-` |
| Board.Movements | controllers/game.controller.js:229-235 | the collected indexes are exactly the cells that are not `-` |
| Board.Opponent | controllers/game.controller.js:122 | the opponent's mark is `X` or `O` and never the user's |
| GameStatusAsWritten.Decimal | controllers/game.controller.js:269-275 | `idx` concatenated to a string contributes only decimal digits, and exactly one digit for indices below 10 |
| GameStatusAsWritten.DecimalValue | controllers/game.controller.js:269-275 | the digits appended for `idx` read back, most significant first, as `idx` itself |
| GameStatusAsWritten.GameStatus | controllers/game.controller.js:259-308 | fewer than five marks give RUNNING, and DRAW is only returned for nine-character boards |
| Detection.Marked | controllers/game.controller.js:269-275 | the cells holding a mark, listed in increasing order, each present exactly once |
| Detection.IndexStringIsDigits | controllers/game.controller.js:266-275 | on boards of at most ten cells the accumulated index string is the digits of the marked cells, one character each |
| Detection.ConsecutiveIff | controllers/game.controller.js:277-285 | a, b, c appear consecutively in the ascending list of marked cells exactly when all three hold the mark and no other cell between a and c does |
| Detection.DetectionExact | controllers/game.controller.js:277-300 | on boards of at most ten cells, a triple's substring occurs exactly when its three cells hold the mark and no other cell between its outer cells does |
| Detection.PatternsAreLines | controllers/game.controller.js:278-285 | the eight searched strings are the digits of the three rows, three columns and two diagonals |
| Detection.DetectsWinIff | controllers/game.controller.js:277-301 | the `\|\|` chain succeeds exactly when one of the eight lines is detected in that sense |
| Classification.GameStatusExact | controllers/game.controller.js:259-308 | on boards of at most ten cells, each status holds exactly when the count, the X detections (checked first), the O detections and the length say so |
| Classification.GameStatusSound | controllers/game.controller.js:277-300 | on boards of at most ten cells, X_WON and O_WON are only returned when that player holds a complete line |
| Classification.RowDetectedIffComplete | controllers/game.controller.js:278-284 | on boards of at most ten cells, a row is detected exactly when its three cells hold the mark, so rows are never missed |
| Detection.IndexStringPrefix | controllers/game.controller.js:269-275 | the index string built over the first cells is a prefix of the one built over more cells |
| Detection.RowFound | controllers/game.controller.js:269-287 | on a board of any length, the pattern of a row whose three cells hold the mark occurs in that mark's index string |
| Classification.CompleteRowWins | controllers/game.controller.js:277-300 | on a board of any length with five or more marks, a complete X row gives X_WON, and a complete O row gives O_WON unless X is found first |
| Classification.InterveningMarkHidesLine | controllers/game.controller.js:277-300 | on boards of at most ten cells, a column or diagonal is not detected when the same mark sits between its outer cells off the line |
| Classification.LineCount | controllers/game.controller.js:262-264 | a complete line needs three of that mark |
| Classification.MovementsBound | controllers/game.controller.js:260 | the movement count is at least the number of `X` plus the number of `O` |
| Classification.EarlyExitSound | controllers/game.controller.js:262-264 | on a balanced board with fewer than five marks no player has a line, so the early RUNNING return loses nothing |
| Engine.GenerateMoveIndex | controllers/game.controller.js:310-313 | the result is a draw below 10 that is not excluded; nothing is returned exactly when every draw is excluded |
| Engine.GenerateMoveIndexFirst | controllers/game.controller.js:310-313 | the result is the first draw that is not excluded |
| Engine.CreateGame | controllers/game.controller.js:103-129 | succeeds exactly when the board passes the format check and holds one non-`-` character; rejects with "Invalid board format" exactly on a format failure and with "Please make your move" exactly when the board does not hold one mark; otherwise the user's mark is that character, the opponent's mark lands on another, empty or appended, cell (0..9), nothing else changes, each mark occurs once, and the status is RUNNING |
| Engine.NoReplacement | controllers/game.controller.js:200-209 | when no submitted cell replaces a stored one, the submitted board is no longer than the stored one and keeps every stored mark at an index the submitted board has; a stored mark beyond its end is dropped (`Findings.GrownBoardTruncated`) |
| Engine.Validate | controllers/game.controller.js:170-224 | each reason is returned exactly when the earlier checks pass and its own fails, in the order format, identical board ("You did not move"), replacement, count difference above one, turn (the user's mark exactly one ahead); the board is accepted exactly when all five pass, and "Please make your move" never comes from an edit; an accepted board keeps every stored mark at an index it has, differs by at most one between X and O, and holds exactly one more of the user's mark |
| Engine.EditGame | controllers/game.controller.js:188-240 | fails exactly when validation does, with its reason; a terminal board is stored unchanged with its status; otherwise exactly one empty (or appended) cell receives the opponent's mark and the status is recomputed; every stored mark at an index the submitted board has survives |
| Engine.EditBalance | controllers/game.controller.js:211-240 | after an accepted edit the user's mark leads by one on a finished board, and the marks are equal once the opponent has answered |
| Scenarios.CreateShortBoard | test/controllers/game.controller.test.js:254-262 | creating with `"-"` answers "Invalid board format" |
| Scenarios.CreateWithoutMove | test/controllers/game.controller.test.js:264-272 | creating with an empty board answers "Please make your move" |
| Scenarios.CreateFirstMove | test/controllers/game.controller.test.js:225-233 | creating with `"-X-------"` and the draw 0 stores `"OX-------"`, RUNNING, for player X |
| Scenarios.EditMove | test/controllers/game.controller.test.js:276-295 | O's move on `"-------XO"` is accepted, and the opponent's reply keeps the game RUNNING |
| Scenarios.EditXWins | test/controllers/game.controller.test.js:297-317 | completing the top row stores X_WON with the board unchanged |
| Scenarios.EditDraw | test/controllers/game.controller.test.js:319-339 | the draw example stores DRAW with the board unchanged |
| Scenarios.EditInvalidFormat | test/controllers/game.controller.test.js:387-405 | an edit with `"-"` answers "Invalid board format" |
| Scenarios.EditWithoutMove | test/controllers/game.controller.test.js:407-425 | resubmitting the stored board answers "You did not move" |
| Scenarios.EditReplacing | test/controllers/game.controller.test.js:427-445 | overwriting the stored X answers "Unable to replace values" |
| Scenarios.EditOutOfTurn | test/controllers/game.controller.test.js:447-465 | O submitting an extra X answers "It is not your move!" |
| Findings.PrematureDraw | controllers/game.controller.js:303-305 | `"OO-XOXX-X"` is DRAW although two cells are empty and O can still complete the top row |
| Findings.MissedDiagonal | controllers/game.controller.js:277-301 | X holds the 0-4-8 diagonal of `"XXO-X-OOX"`, yet the status is DRAW |
| Findings.LongBoardFalseWin | controllers/game.controller.js:269-288 | on a thirteen-cell board with X at 9, 10 and 12 the index string `"91012"` contains `"012"`, so X_WON is returned although X holds no line |
| Findings.LongBoardCreate | controllers/game.controller.js:103-129 | a thirteen-cell board passes creation |
| Findings.LongBoardEdit | controllers/game.controller.js:170-240 | that game accepts the board of the false win and stores X_WON for the O player |
| Findings.NineGrowsBoard | controllers/game.controller.js:119-122 | on every nine-cell opening index 9 is a possible draw, and it stores a ten-cell board with the opponent's mark appended |
| Findings.GrownBoardTruncated | controllers/game.controller.js:200-224 | a nine-cell board submitted for a ten-cell one is accepted, so the stored mark at index 9 vanishes |
| Findings.TwoMarksInOneTurn | controllers/game.controller.js:200-240 | X may add two of its own marks and one of O's in one request; the edit is accepted and X_WON is stored |
| Findings.PrematureDrawCorrected | controllers/game.controller.js:303-307 | with the intended status that board is RUNNING |
| Findings.MissedDiagonalCorrected | controllers/game.controller.js:277-288 | with the intended status that board is X_WON |
| Findings.LongBoardCorrected | controllers/game.controller.js:103 | with the anchored check, the thirteen-cell board is rejected at creation and at edit |
| Findings.TwoMarksCorrected | controllers/game.controller.js:211-216 | with one-cell validation, the three-cell change answers "Move only once!" |
| Findings.SeveralChanges | controllers/game.controller.js:211-216 | with one-cell validation, every change of other than one cell that passes the earlier checks answers "Move only once!" |
| Findings.FinishedGameReopened | controllers/game.controller.js:176-186 | a game O has won (`"OOOXX-X--"`, O_WON) still accepts X's mark at cell 5, and the edit stores X_WON: the stored status is never read |
| Findings.FinishedGameCorrected | controllers/game.controller.js:176-186 | when the stored status is read, the same request on that finished game is refused with the game-over refusal |
| Intended.ExactFormatIff | controllers/game.controller.js:103 | the anchored check is the unanchored one restricted to nine characters |
| Intended.LineFrom | controllers/game.controller.js:277-300 | some line from a position on in the line list is complete |
| Intended.IntendedStatus | controllers/game.controller.js:259-308 | X_WON exactly when X has a line; O_WON exactly when O has one and X does not; DRAW exactly when neither has one and no cell is empty; RUNNING otherwise |
| Intended.FullBoardMovements | controllers/game.controller.js:260 | a board without `-` has as many movements as cells |
| Intended.StatusAgreement | controllers/game.controller.js:259-308 | on nine cells, X_WON as written is an X win by the rules, O_WON as written is a win, every real draw is reported as DRAW, and a balanced board reported RUNNING really is running |
| Intended.PickExists | controllers/game.controller.js:310-313 | while a nine-cell game runs, a corrected generator has an index to return, so its loop ends |
| Intended.NoLineYet | controllers/game.controller.js:262-264 | fewer than three of each mark complete no line |
| Intended.OpeningOngoing | controllers/game.controller.js:110-129 | an opening with one mark answered in an empty cell is ongoing: nine cells, one mark each, no line |
| Intended.IntendedCreate | controllers/game.controller.js:103-129 | the corrected creation succeeds exactly on nine-cell boards holding one mark; its games are ongoing, hold the opponent's mark at the index and every other submitted cell unchanged, and the user's mark is the submitted one |
| Intended.Changed | controllers/game.controller.js:200-202 | every listed index is a cell where the boards differ |
| Intended.ChangedComplete | controllers/game.controller.js:200-202 | every cell where the boards differ is listed |
| Intended.ChangedSingle | controllers/game.controller.js:200-202 | when the boards differ at one index only, exactly that index is listed |
| Intended.LegalMovesShape | controllers/game.controller.js:188-224 | every legal move passes the identity and replacement checks and changes exactly the one cell, to the user's mark |
| Intended.ChangeIsMove | controllers/game.controller.js:188-224 | conversely, one changed cell holding the user's mark, with no replacement, is a legal move |
| Intended.IntendedValidate | controllers/game.controller.js:170-224 | the corrected checks reject bad formats and unchanged boards as written, and accept exactly the boards that are one legal move of the user |
| Intended.IntendedEdit | controllers/game.controller.js:188-240 | the corrected edit fails exactly when validation does; a finished board is stored unchanged; otherwise the opponent's mark goes into an empty cell below 9, and the status is the intended one |
| Intended.WriteMark | controllers/game.controller.js:238 | writing a mark into an empty cell keeps nine cells and every other cell, and raises that mark's count by one |
| Intended.EditKeepsOngoing | controllers/game.controller.js:188-240 | an accepted corrected edit of an ongoing game keeps nine cells and every stored mark, and keeps the user's count equal to or one above the opponent's; a draw has no empty cell, and a RUNNING result is ongoing again |
| Intended.EditKeepsMarks | controllers/game.controller.js:200-240 | an accepted corrected edit keeps every stored mark at its index |
| Intended.IntendedPlay | controllers/game.controller.js:176-240 | the corrected edit reads the stored status: a game that is not RUNNING is refused as over, and only then; a running game is refused exactly when the corrected validation fails, with its reason; an accepted edit keeps the user's mark and every stored mark |

## Left out

- HTTP plumbing (controllers/game.controller.js:85-101, :132-135, :144-166, :250-251) is not modelled: request-body shape checks, status codes, JSON bodies and the `location` URL built from environment variables. The model returns a `Reason`, and `Engine.ReasonText` gives its message.
- Game-id validation through the `validator` library is not modelled. It is a foreign call.
- Database access is not modelled: select, insert, update and delete, the 404 for a missing game, and `getAllGames`, `getGameById` and `deleteGameById`. The stored board and `user_choice` become the parameters `oldBoard` and `userChoice`. The column enum that restricts `user_choice` to `X` or `O` lives in the database. So `userChoice` is any character here, and the turn rule is stated for `X` and `O`.
- `Math.random` is replaced by the parameter `idx` or by a finite sequence of draws. When every index 0..9 is excluded, `generateMoveIndex` (:310-313) recurses without end. JavaScript does not eliminate that tail call, so the stack overflows and the `RangeError` is caught at :252-255, which answers 500. In `editGame` this needs a board of at least ten cells whose indices 0..9 all hold marks while `getGameStatus` still says RUNNING; only the unanchored format check admits such a board. `Engine.EditPick` demands a valid `idx`, so `Engine.EditGame` does not model this 500 path; `Engine.GenerateMoveIndex` returns `None` once its finite draws run out.
- The `try`/`catch` that answers 500 on any other thrown error is not modelled.
- The application setup, server, database configuration, routes and migration hold no engine logic and are not part of this model.
- JavaScript strings count UTF-16 code units; the model counts one Dafny `char` per cell. The code measures and indexes strings in code units (`userChoice.length` at controllers/game.controller.js:112, `arr.length` at :303, the indices at :200 and :269), so a character outside the Basic Multilingual Plane counts there as two cells and here as one. For example, `"---------\u{1F600}"` passes the format check; the code then finds `userChoice.length` to be 2 and answers "Please make your move", while `Engine.CreateGame` on the same string succeeds.
- GameStatusAsWritten.GameStatus: its own contract states only the early RUNNING and that DRAW needs nine characters. The exact characterisation is in `Classification.GameStatusExact` and is limited to boards of at most ten cells. Longer boards, which the unanchored check admits, write two-digit indices and are covered only by the counterexample `Findings.LongBoardFalseWin`.
- Classification.GameStatusSound: soundness holds only up to ten cells; `Findings.LongBoardFalseWin` shows it fails beyond.
- Engine.Validate: the turn rule is stated only for `X` and `O`. For any other `userChoice` the code applies no turn check, and the model does the same.

## Findings

| source | as written | input that shows it | evidently intended | confidence | as-written member | corrected member |
|---|---|---|---|---|---|---|
| controllers/game.controller.js:303-305 | any nine-character board with five or more marks and no detected line is DRAW | `"OO-XOXX-X"`: two empty cells, and O can still fill 0-1-2 | DRAW only when no cell is empty; the controller's own test "makes DRAW win" (test/controllers/game.controller.test.js:319-339) expects DRAW on exactly this board, so the tests record the behaviour as written and the intended one rests on the rules of the game | not executed | Findings.PrematureDraw | Intended.IntendedStatus |
| controllers/game.controller.js:277-300 | a line is found by substring search in the concatenated indices, so a mark between a column's or diagonal's outer cells hides it | `"XXO-X-OOX"`: X holds 0, 4 and 8, and its index string `"0148"` lacks `"048"`, so the status is DRAW | X_WON whenever X holds a complete line | not executed | Findings.MissedDiagonal | Intended.IntendedStatus |
| controllers/game.controller.js:103, :170, :269-288 | the unanchored format check admits longer boards, whose two-digit indices make the substring test report lines that do not exist | create with `"---O---------"` and draw 9, then the O player submits `"-O-O--O-OXX-X"`: X at 9, 10 and 12 gives `"91012"`, so X_WON is stored | only nine-character boards are accepted | not executed | Findings.LongBoardFalseWin | Intended.IntendedValidate |
| controllers/game.controller.js:119-122, :311 | `Math.floor(Math.random() * 10)` can return 9, and writing index 9 of a nine-cell board appends a tenth cell; a ten-cell board can never be DRAW, and a later nine-cell submission silently drops that cell | create with any nine-cell opening and draw 9; then `"XX------O"` for stored `"X--------O"` is accepted | the opponent's index lies in 0..8 | not executed | Findings.NineGrowsBoard | Intended.IntendedCreate |
| controllers/game.controller.js:200-224 | only the count difference is checked, so a user may place several marks, including the opponent's, in one request | stored `"--X----O-"`, user X submits `"XXXO---O-"`: accepted, and X_WON is stored | exactly one changed cell, holding the user's mark | not executed | Findings.TwoMarksInOneTurn | Intended.IntendedValidate |
| controllers/game.controller.js:176-186 | the edit reads only the stored board and `user_choice`, never the stored status, so a finished game still accepts moves and its result can be overturned | stored `"OOOXX-X--"` (O_WON, user X); X submits `"OOOXXXX--"`: accepted, and X_WON is stored | a game whose status is not RUNNING takes no further moves | not executed | Findings.FinishedGameReopened | Intended.IntendedPlay |

The substring test is not the same as checking the eight lines cell by cell: `Detection.DetectionExact` states exactly when they agree, and `Findings.MissedDiagonal` shows a line it misses. An accepted edit need not be a single move: `Findings.TwoMarksInOneTurn` adds three marks in one request.

=== FILE: board.dfy ===
/** Boards as the controller handles them: plain strings whose cells are
    'X', 'O' and '-' (empty).  Nothing forces the length to be nine: the
    format check is an unanchored regular expression, so every operation here
    is total over strings. */
module Board {

  const EmptyCell: char := '-'

  /** A character of the board alphabet `[XO-]`. */
  predicate IsCell(c: char) {
    c == 'X' || c == 'O' || c == EmptyCell
  }

  /** Nine cell characters start at position i: where `[XO-]{9}` matches. */
  predicate RunAt(s: string, i: nat) {
    i + 9 <= |s| && forall k | i <= k < i + 9 :: IsCell(s[k])
  }

  /** `v.matches(board, /[XO-]{9}/)`.  The pattern is not anchored, so a
      string passes as soon as it contains nine consecutive cell characters
      anywhere. */
  predicate FormatOk(s: string) {
    exists i: nat | i + 9 <= |s| :: RunAt(s, i)
  }

  /** The left-to-right search the regular expression performs: count the
      length of the current run of cell characters and stop at nine. */
  method MatchesBoardFormat(s: string) returns (ok: bool)
    ensures ok <==> FormatOk(s)
  {
    var i, run := 0, 0;
    while i < |s| && run < 9
      invariant run <= i <= |s|
      invariant run <= 9
      invariant forall k | i - run <= k < i :: IsCell(s[k])
      invariant run < i ==> !IsCell(s[i - run - 1])
      invariant run < 9 ==> forall j: nat | j + 9 <= i :: !RunAt(s, j)
    {
      if IsCell(s[i]) {
        run := run + 1;
      } else {
        run := 0;
      }
      i := i + 1;
    }
    ok := run == 9;
    if ok {
      assert RunAt(s, i - 9);
    }
  }

  /** Number of cells equal to c: `arr.filter((val) => val === c).length`. */
  function Count(s: string, c: char): nat {
    multiset(s)[c]
  }

  /** `board.replace(/[-]/g, '')`: the board with every empty cell removed,
      order kept. */
  function StripEmpty(s: string): (r: string)
    ensures forall k | 0 <= k < |r| :: r[k] != EmptyCell
    ensures multiset(r) == multiset(s)[EmptyCell := 0]
    ensures |r| == |s| - Count(s, EmptyCell)
    decreases |s|
  {
    if s == [] then []
    else
      var init, last := s[..|s| - 1], s[|s| - 1];
      assert s == init + [last];
      StripEmpty(init) + (if last == EmptyCell then [] else [last])
  }

  /** `String.prototype.indexOf` / `Array.prototype.indexOf` for one
      character: the first position holding c, or -1. */
  function IndexOf(s: string, c: char): (r: int)
    ensures -1 <= r < |s|
    ensures r == -1 <==> c !in s
    ensures 0 <= r ==> s[r] == c && forall k | 0 <= k < r :: s[k] != c
    decreases |s|
  {
    if s == [] then -1
    else if s[0] == c then 0
    else
      var r := IndexOf(s[1..], c);
      assert s == [s[0]] + s[1..];
      if r == -1 then -1
      else
        assert s[..r + 1] == [s[0]] + s[1..][..r];
        r + 1
  }

  /** The JavaScript assignment `arr[i] = c` on the character array of s,
      for i at most the length: it overwrites a cell, or appends one when
      i is exactly the length. */
  function SetAt(s: string, i: nat, c: char): (r: string)
    requires i <= |s|
    ensures |r| == if i < |s| then |s| else |s| + 1
    ensures r[i] == c
    ensures forall k | 0 <= k < |s| && k != i :: r[k] == s[k]
    ensures multiset(r) == (if i < |s| then multiset(s) - multiset{s[i]} else multiset(s)) + multiset{c}
  {
    if i < |s| then
      assert s == s[..i] + [s[i]] + s[i + 1..];
      assert s[i := c] == s[..i] + [c] + s[i + 1..];
      s[i := c]
    else s + [c]
  }

  /** Writing a mark into an empty cell, or appending it, adds one to that
      mark's count and leaves the count of every other mark alone. */
  lemma FillCount(s: string, i: nat, c: char, d: char)
    requires i <= |s| && (i < |s| ==> s[i] == EmptyCell) && c != EmptyCell && d != EmptyCell
    ensures Count(SetAt(s, i, c), d) == Count(s, d) + (if d == c then 1 else 0)
  {
  }

  /** A board with a single non-empty cell: its character occurs once, every
      other character but the empty cell not at all. */
  lemma OpeningCounts(s: string, d: char)
    requires |StripEmpty(s)| == 1 && d != EmptyCell
    ensures Count(s, d) == if d == StripEmpty(s)[0] then 1 else 0
    ensures |s| - Count(s, EmptyCell) == 1
  {
    var r := StripEmpty(s);
    assert r == [r[0]];
    assert multiset(r) == multiset{r[0]};
    assert multiset(s)[d] == multiset(r)[d];
  }

  /** `indexesOfMovements`: the positions below n holding anything other than
      the empty cell, in ascending order. */
  function Movements(s: string, n: nat): (r: seq<nat>)
    requires n <= |s|
    ensures forall i: nat :: i in r <==> i < n && s[i] != EmptyCell
    decreases n
  {
    if n == 0 then []
    else Movements(s, n - 1) + (if s[n - 1] != EmptyCell then [n - 1] else [])
  }

  /** The distance between two counts. */
  function Abs(x: int): nat {
    if x < 0 then -x else x
  }

  /** The mark the automatic opponent writes: `userChoice === 'X' ? 'O' : 'X'`. */
  function Opponent(userChoice: char): (m: char)
    ensures m != userChoice
    ensures m == 'X' || m == 'O'
  {
    if userChoice == 'X' then 'O' else 'X'
  }

  // Properties of the format check.

  /** Up to nine characters, the unanchored check is exact: it accepts a
      string iff it is nine cell characters.  Hence every nine-cell board
      passes and shorter strings such as "-" fail. */
  lemma NineCellsIff(s: string)
    requires |s| <= 9
    ensures FormatOk(s) <==> |s| == 9 && forall k | 0 <= k < 9 :: IsCell(s[k])
  {
    if |s| == 9 && forall k | 0 <= k < 9 :: IsCell(s[k]) {
      assert RunAt(s, 0);
    }
  }

  /** Because the pattern is not anchored, anything may surround an accepted
      run: a longer string that contains a passing one passes too. */
  lemma FormatOkSurrounded(p: string, s: string, q: string)
    requires FormatOk(s)
    ensures FormatOk(p + s + q)
  {
    var i: nat :| i + 9 <= |s| && RunAt(s, i);
    var t := p + s + q;
    forall k | |p| + i <= k < |p| + i + 9
      ensures IsCell(t[k])
    {
      assert t[k] == s[k - |p|];
    }
    assert RunAt(t, |p| + i);
  }

  /** Anything that passes has at least nine characters, so every position
      below ten is at most the length. */
  lemma FormatOkLength(s: string)
    requires FormatOk(s)
    ensures |s| >= 9
  {
  }

  /** Only the empty cell is removed: exactly one character survives the
      stripping iff exactly one position holds a non-empty character, and that
      character sits at its first occurrence. */
  lemma {:induction false} SingleMark(s: string)
    requires |StripEmpty(s)| == 1
    ensures var c := StripEmpty(s)[0];
      var p := IndexOf(s, c);
      0 <= p && forall k | 0 <= k < |s| && k != p :: s[k] == EmptyCell
    decreases |s|
  {
    var c := StripEmpty(s)[0];
    assert c in multiset(StripEmpty(s));
    var p := IndexOf(s, c);
    assert s[p] != EmptyCell;
    forall k | 0 <= k < |s| && k != p
      ensures s[k] == EmptyCell
    {
      if s[k] != EmptyCell {
        if k < p {
          TwoNonEmpty(s, k, p);
        } else {
          TwoNonEmpty(s, p, k);
        }
      }
    }
  }

  /** Two distinct non-empty positions leave at least two characters. */
  lemma {:induction false} TwoNonEmpty(s: string, p: nat, q: nat)
    requires p < q < |s| && s[p] != EmptyCell && s[q] != EmptyCell
    ensures |StripEmpty(s)| >= 2
    decreases |s|
  {
    var init := s[..|s| - 1];
    if q < |s| - 1 {
      TwoNonEmpty(init, p, q);
    } else {
      assert init[p] == s[p];
      assert s[p] in multiset(init);
      assert s[p] in multiset(StripEmpty(init));
    }
  }

  /** With exactly one non-empty character c, stripping leaves just c. */
  lemma StripSingleton(s: string, c: char)
    requires multiset(s)[EmptyCell := 0] == multiset{c}
    ensures StripEmpty(s) == [c]
  {
    var r := StripEmpty(s);
    assert multiset(r) == multiset{c};
    assert r[0] in multiset(r);
  }
}

=== FILE: classification.dfy ===
/** What `getGameStatus` decides, stated over the cells of the board, and
    where that differs from the rules of tic-tac-toe. */
module Classification {
  import opened Board
  import opened GameStatusAsWritten
  import opened Detection

  /** The eight lines spelled out. */
  lemma DetectedSomeUnrolled(arr: string, m: char)
    ensures DetectedSome(arr, m) <==>
      || Detected(arr, m, Line(0, 1, 2)) || Detected(arr, m, Line(0, 4, 8))
      || Detected(arr, m, Line(0, 3, 6)) || Detected(arr, m, Line(1, 4, 7))
      || Detected(arr, m, Line(2, 5, 8)) || Detected(arr, m, Line(3, 4, 5))
      || Detected(arr, m, Line(6, 7, 8)) || Detected(arr, m, Line(2, 4, 6))
  {
    if DetectedSome(arr, m) {
      var k :| 0 <= k < |Lines| && Detected(arr, m, Lines[k]);
      assert k == 0 || k == 1 || k == 2 || k == 3 || k == 4 || k == 5 || k == 6 || k == 7;
    }
    assert Lines[0] == Line(0, 1, 2) && Lines[1] == Line(0, 4, 8) && Lines[2] == Line(0, 3, 6);
    assert Lines[3] == Line(1, 4, 7) && Lines[4] == Line(2, 5, 8) && Lines[5] == Line(3, 4, 5);
    assert Lines[6] == Line(6, 7, 8) && Lines[7] == Line(2, 4, 6);
  }

  /** On boards of at most ten cells the status is decided by the cells
      alone: X is checked before O, and DRAW needs exactly nine cells. */
  lemma GameStatusExact(arr: string)
    requires |arr| <= 10
    ensures GameStatus(arr) == XWon <==> MovementsCount(arr) >= 5 && DetectedSome(arr, 'X')
    ensures GameStatus(arr) == OWon <==>
      MovementsCount(arr) >= 5 && !DetectedSome(arr, 'X') && DetectedSome(arr, 'O')
    ensures GameStatus(arr) == Draw <==>
      MovementsCount(arr) >= 5 && !DetectedSome(arr, 'X') && !DetectedSome(arr, 'O') && |arr| == 9
    ensures GameStatus(arr) == Running <==>
      MovementsCount(arr) < 5 || (!DetectedSome(arr, 'X') && !DetectedSome(arr, 'O') && |arr| != 9)
  {
    DetectsWinIff(arr, 'X');
    DetectsWinIff(arr, 'O');
  }

  /** The substring test never reports a line that is not there, on boards
      of at most ten cells. */
  lemma GameStatusSound(arr: string)
    requires |arr| <= 10
    ensures GameStatus(arr) == XWon ==> HasLine(arr, 'X')
    ensures GameStatus(arr) == OWon ==> HasLine(arr, 'O')
  {
    GameStatusExact(arr);
  }

  /** Rows are found exactly: nothing lies strictly between the cells of a
      row except its middle cell, so a complete row is always detected. */
  lemma RowDetectedIffComplete(arr: string, m: char, row: nat)
    requires |arr| <= 10 && row < 3
    ensures var l := Line(3 * row, 3 * row + 1, 3 * row + 2);
      Includes(Indexes(arr, m), PatternOf(l)) <==> Complete(arr, m, l)
  {
    DetectionExact(arr, m, Line(3 * row, 3 * row + 1, 3 * row + 2));
  }

  /** With five marks on a board of any length a completed row wins, X
      before O. */
  lemma CompleteRowWins(arr: string, m: char, row: nat)
    requires row < 3 && MovementsCount(arr) >= 5
    requires m == 'X' || m == 'O'
    requires Complete(arr, m, Line(3 * row, 3 * row + 1, 3 * row + 2))
    ensures m == 'X' ==> GameStatus(arr) == XWon
    ensures m == 'O' ==> GameStatus(arr) == XWon || GameStatus(arr) == OWon
  {
    assert DetectsWin(Indexes(arr, m)) by {
      RowFound(arr, m, row);
      var k := if row == 0 then 0 else if row == 1 then 5 else 6;
      assert Patterns[k] == PatternOf(Line(3 * row, 3 * row + 1, 3 * row + 2));
    }
  }

  /** A mark of the same kind strictly inside a column or diagonal, other
      than its middle cell, hides that line from the substring test. */
  lemma InterveningMarkHidesLine(arr: string, m: char, l: Line, k: nat)
    requires |arr| <= 10 && l.a < l.b < l.c < 10
    requires l.a < k < l.c && k != l.b && Holds(arr, m, k)
    ensures !Includes(Indexes(arr, m), PatternOf(l))
  {
    DetectionExact(arr, m, l);
  }

  /** Three distinct cells holding c make its count at least three. */
  lemma CountOfThree(s: string, c: char, i: nat, j: nat, k: nat)
    requires i < j < k < |s| && s[i] == c && s[j] == c && s[k] == c
    ensures Count(s, c) >= 3
  {
    assert s == s[..j] + [s[j]] + s[j + 1..];
    assert s[..j][i] == c;
    assert s[j + 1..][k - j - 1] == c;
  }

  /** A completed line puts at least three of its marks on the board. */
  lemma LineCount(arr: string, m: char, l: Line)
    requires l.a < l.b < l.c
    ensures Complete(arr, m, l) ==> Count(arr, m) >= 3
  {
    if Complete(arr, m, l) {
      CountOfThree(arr, m, l.a, l.b, l.c);
    }
  }

  /** Every X and every O is a movement. */
  lemma {:induction false} MovementsBound(s: string)
    ensures MovementsCount(s) >= Count(s, 'X') + Count(s, 'O')
    decreases |s|
  {
    if s != [] {
      var init := s[..|s| - 1];
      assert s == init + [s[|s| - 1]];
      MovementsBound(init);
    }
  }

  /** The early RUNNING for fewer than five marks hides no line, as long as
      the counts of X and O differ by at most one (which every accepted edit
      guarantees). */
  lemma EarlyExitSound(arr: string)
    requires Abs(Count(arr, 'X') - Count(arr, 'O')) <= 1 && MovementsCount(arr) < 5
    ensures !HasLine(arr, 'X') && !HasLine(arr, 'O')
  {
    MovementsBound(arr);
    forall k | 0 <= k < |Lines|
      ensures !Complete(arr, 'X', Lines[k]) && !Complete(arr, 'O', Lines[k])
    {
      LineCount(arr, 'X', Lines[k]);
      LineCount(arr, 'O', Lines[k]);
    }
  }
}

=== FILE: detection.dfy ===
/** What the substring test of `getGameStatus` actually decides.  On boards
    of at most ten cells every index is one decimal digit, so the index string
    is the ascending list of marked positions written digit by digit, and the
    pattern "abc" occurs in it exactly when a, b and c are marked and nothing
    else between a and c is. */
module Detection {
  import opened GameStatusAsWritten

  /** A winning line of the 3x3 grid, as three ascending cell indices. */
  datatype Line = Line(a: nat, b: nat, c: nat)

  /** The eight lines, in the order the controller tests their patterns. */
  const Lines: seq<Line> := [
    Line(0, 1, 2), Line(0, 4, 8), Line(0, 3, 6), Line(1, 4, 7),
    Line(2, 5, 8), Line(3, 4, 5), Line(6, 7, 8), Line(2, 4, 6)]

  /** The pattern the controller writes for a line. */
  function PatternOf(l: Line): string
    requires l.a < 10 && l.b < 10 && l.c < 10
  {
    [DigitChar(l.a), DigitChar(l.b), DigitChar(l.c)]
  }

  /** Cell i exists and holds m. */
  predicate Holds(arr: string, m: char, i: nat) {
    i < |arr| && arr[i] == m
  }

  /** All three cells of l hold m: a completed line. */
  predicate Complete(arr: string, m: char, l: Line) {
    Holds(arr, m, l.a) && Holds(arr, m, l.b) && Holds(arr, m, l.c)
  }

  /** What the substring test sees: the line is complete and no other cell
      strictly between its first and last index holds m. */
  predicate Detected(arr: string, m: char, l: Line) {
    Complete(arr, m, l) && forall k: nat | l.a < k < l.c && k != l.b :: !Holds(arr, m, k)
  }

  /** Some line is complete for m. */
  predicate HasLine(arr: string, m: char) {
    exists k | 0 <= k < |Lines| :: Complete(arr, m, Lines[k])
  }

  /** Some line is detected for m in the sense of `Detected`. */
  predicate DetectedSome(arr: string, m: char) {
    exists k | 0 <= k < |Lines| :: Detected(arr, m, Lines[k])
  }

  /** Strictly ascending entries. */
  predicate Increasing(L: seq<nat>) {
    forall j, k | 0 <= j < k < |L| :: L[j] < L[k]
  }

  /** L lists, in ascending order, exactly the positions holding m. */
  ghost predicate ListsMarks(L: seq<nat>, arr: string, m: char) {
    && Increasing(L)
    && (forall j | 0 <= j < |L| :: L[j] < |arr| && arr[L[j]] == m)
    && (forall i: nat | Holds(arr, m, i) :: i in L)
  }

  /** The ascending positions below n that hold m. */
  function Marked(arr: string, m: char, n: nat): (L: seq<nat>)
    requires n <= |arr|
    ensures forall j | 0 <= j < |L| :: L[j] < n && arr[L[j]] == m
    ensures forall i: nat | i < n && Holds(arr, m, i) :: i in L
    ensures Increasing(L)
    decreases n
  {
    if n == 0 then []
    else Marked(arr, m, n - 1) + (if arr[n - 1] == m then [n - 1] else [])
  }

  /** A list of single-digit numbers written digit by digit. */
  function Digits(L: seq<nat>): (s: string)
    requires forall j | 0 <= j < |L| :: L[j] < 10
    ensures |s| == |L|
    decreases |L|
  {
    if L == [] then [] else Digits(L[..|L| - 1]) + [DigitChar(L[|L| - 1])]
  }

  /** Entry j of the digit list is the digit of L[j]. */
  lemma {:induction false} DigitsAt(L: seq<nat>, j: nat)
    requires forall j | 0 <= j < |L| :: L[j] < 10
    requires j < |L|
    ensures Digits(L)[j] == DigitChar(L[j])
    decreases |L|
  {
    if j < |L| - 1 {
      DigitsAt(L[..|L| - 1], j);
    }
  }

  lemma DigitCharInjective(d: nat, e: nat)
    requires d < 10 && e < 10 && DigitChar(d) == DigitChar(e)
    ensures d == e
  {
    assert DigitChar(d) as int == '0' as int + d;
  }

  /** On boards of at most ten cells the index string is the digit list of
      the marked positions. */
  lemma {:induction false} IndexStringIsDigits(arr: string, m: char, n: nat)
    requires n <= |arr| <= 10
    ensures IndexString(arr, m, n) == Digits(Marked(arr, m, n))
    decreases n
  {
    if n > 0 {
      IndexStringIsDigits(arr, m, n - 1);
      var L, L' := Marked(arr, m, n), Marked(arr, m, n - 1);
      if arr[n - 1] == m {
        assert Decimal(n - 1) == [DigitChar(n - 1)];
        assert L == L' + [n - 1];
        assert L[..|L| - 1] == L';
        assert Digits(L) == Digits(L') + [DigitChar(n - 1)];
        assert IndexString(arr, m, n) == IndexString(arr, m, n - 1) + [DigitChar(n - 1)];
        assert IndexString(arr, m, n) == Digits(L);
      } else {
        assert L == L';
        assert IndexString(arr, m, n) == IndexString(arr, m, n - 1) + "";
        assert IndexString(arr, m, n - 1) + "" == IndexString(arr, m, n - 1);
        assert IndexString(arr, m, n) == Digits(L);
      }
    } else {
      assert Marked(arr, m, n) == [];
      assert IndexString(arr, m, n) == Digits(Marked(arr, m, n));
    }
  }

  /** Three characters in a row form an occurrence of the three-character
      string. */
  lemma OccursThree(s: string, x: char, y: char, z: char, j: nat)
    requires j + 3 <= |s| && s[j] == x && s[j + 1] == y && s[j + 2] == z
    ensures OccursAt(s, [x, y, z], j)
  {
  }

  /** A three-digit pattern occurs in a digit list iff its numbers are
      consecutive entries of the list. */
  lemma IncludesInDigits(L: seq<nat>, a: nat, b: nat, c: nat)
    requires forall j | 0 <= j < |L| :: L[j] < 10
    requires a < 10 && b < 10 && c < 10
    ensures Includes(Digits(L), [DigitChar(a), DigitChar(b), DigitChar(c)]) <==>
      exists j: nat | j + 2 < |L| :: L[j] == a && L[j + 1] == b && L[j + 2] == c
  {
    var s, p := Digits(L), [DigitChar(a), DigitChar(b), DigitChar(c)];
    if Includes(s, p) {
      var i: nat :| i + 3 <= |s| && OccursAt(s, p, i);
      assert s[i + 0] == p[0] && s[i + 1] == p[1] && s[i + 2] == p[2];
      DigitsAt(L, i);
      DigitsAt(L, i + 1);
      DigitsAt(L, i + 2);
      DigitCharInjective(L[i], a);
      DigitCharInjective(L[i + 1], b);
      DigitCharInjective(L[i + 2], c);
    }
    if j: nat :| j + 2 < |L| && L[j] == a && L[j + 1] == b && L[j + 2] == c {
      ConsecutiveDigitsOccur(L, a, b, c, j);
    }
  }

  lemma ConsecutiveDigitsOccur(L: seq<nat>, a: nat, b: nat, c: nat, j: nat)
    requires forall j | 0 <= j < |L| :: L[j] < 10
    requires a < 10 && b < 10 && c < 10
    requires j + 2 < |L| && L[j] == a && L[j + 1] == b && L[j + 2] == c
    ensures OccursAt(Digits(L), [DigitChar(a), DigitChar(b), DigitChar(c)], j)
  {
    DigitsAt(L, j);
    DigitsAt(L, j + 1);
    DigitsAt(L, j + 2);
    OccursThree(Digits(L), DigitChar(a), DigitChar(b), DigitChar(c), j);
  }

  /** A marked position strictly between two entries two apart is the entry
      between them. */
  lemma BetweenIsMiddle(L: seq<nat>, arr: string, m: char, j: nat, k: nat)
    requires ListsMarks(L, arr, m) && j + 2 < |L|
    ensures Holds(arr, m, k) && L[j] < k < L[j + 2] ==> k == L[j + 1]
  {
    if Holds(arr, m, k) && L[j] < k < L[j + 2] {
      var t :| 0 <= t < |L| && L[t] == k;
    }
  }

  /** Two entries with no marked position strictly between their values are
      neighbours. */
  lemma NoGapNext(L: seq<nat>, arr: string, m: char, s: nat, u: nat)
    requires ListsMarks(L, arr, m) && s < |L| && u < |L|
    requires L[s] < L[u] && forall k: nat | L[s] < k < L[u] :: !Holds(arr, m, k)
    ensures u == s + 1
  {
    if s + 1 < u {
      assert Holds(arr, m, L[s + 1]);
    }
  }

  /** In the ascending list of marked positions, a, b and c are consecutive
      entries iff all three are marked and no other position between a and c
      is. */
  lemma ConsecutiveIff(L: seq<nat>, arr: string, m: char, a: nat, b: nat, c: nat)
    requires ListsMarks(L, arr, m) && a < b < c
    ensures (exists j: nat | j + 2 < |L| :: L[j] == a && L[j + 1] == b && L[j + 2] == c) <==>
      Detected(arr, m, Line(a, b, c))
  {
    if j: nat :| j + 2 < |L| && L[j] == a && L[j + 1] == b && L[j + 2] == c {
      forall k: nat | a < k < c && k != b
        ensures !Holds(arr, m, k)
      {
        BetweenIsMiddle(L, arr, m, j, k);
      }
    }
    if Detected(arr, m, Line(a, b, c)) {
      var ja :| 0 <= ja < |L| && L[ja] == a;
      var jb :| 0 <= jb < |L| && L[jb] == b;
      var jc :| 0 <= jc < |L| && L[jc] == c;
      NoGapNext(L, arr, m, ja, jb);
      NoGapNext(L, arr, m, jb, jc);
    }
  }

  /** The substring test for one triple decides exactly `Detected`. */
  lemma DetectionExact(arr: string, m: char, l: Line)
    requires |arr| <= 10 && l.a < l.b < l.c < 10
    ensures Includes(Indexes(arr, m), PatternOf(l)) <==> Detected(arr, m, l)
  {
    var L := Marked(arr, m, |arr|);
    assert Indexes(arr, m) == Digits(L) by {
      IndexStringIsDigits(arr, m, |arr|);
    }
    assert ListsMarks(L, arr, m);
    IncludesInDigits(L, l.a, l.b, l.c);
    ConsecutiveIff(L, arr, m, l.a, l.b, l.c);
  }

  /** The controller's patterns are the lines' digit strings. */
  lemma PatternsAreLines()
    ensures |Patterns| == |Lines|
    ensures forall k | 0 <= k < |Lines| ::
      Lines[k].a < Lines[k].b < Lines[k].c < 9 && Patterns[k] == PatternOf(Lines[k])
  {
  }

  /** The whole `||` chain: on boards of at most ten cells a win is
      detected for m iff some line is `Detected`. */
  lemma DetectsWinIff(arr: string, m: char)
    requires |arr| <= 10
    ensures DetectsWin(Indexes(arr, m)) <==> DetectedSome(arr, m)
  {
    PatternsAreLines();
    forall k | 0 <= k < |Lines|
      ensures Includes(Indexes(arr, m), Patterns[k]) <==> Detected(arr, m, Lines[k])
    {
      DetectionExact(arr, m, Lines[k]);
    }
  }

  /** The accumulator only grows: after n cells it is a prefix of what it
      is after N cells. */
  lemma {:induction false} IndexStringPrefix(arr: string, m: char, n: nat, N: nat)
    requires n <= N <= |arr|
    ensures IndexString(arr, m, n) <= IndexString(arr, m, N)
    decreases N
  {
    if n < N {
      IndexStringPrefix(arr, m, n, N - 1);
    }
  }

  /** A complete row is found by the substring test on a board of any
      length: its three indices are single digits appended one after the
      other. */
  lemma RowFound(arr: string, m: char, row: nat)
    requires row < 3 && Complete(arr, m, Line(3 * row, 3 * row + 1, 3 * row + 2))
    ensures Includes(Indexes(arr, m), PatternOf(Line(3 * row, 3 * row + 1, 3 * row + 2)))
  {
    var a := 3 * row;
    var pre := IndexString(arr, m, a);
    var p := PatternOf(Line(a, a + 1, a + 2));
    assert IndexString(arr, m, a + 1) == pre + [p[0]];
    assert IndexString(arr, m, a + 2) == pre + [p[0], p[1]];
    assert IndexString(arr, m, a + 3) == pre + p;
    IndexStringPrefix(arr, m, a + 3, |arr|);
    assert OccursAt(Indexes(arr, m), p, |pre|);
  }
}

=== FILE: engine.dfy ===
/** The rules engine of the game controller with the HTTP and database
    plumbing removed: the board check and creation logic of `createNewGame`,
    the validation and transition of `editGame`, and `generateMoveIndex`.
    The random index is a parameter; `ValidPick` is exactly what
    `generateMoveIndex` can return. */
module Engine {
  import opened Wrappers
  import opened Board
  import opened GameStatusAsWritten

  /** The rejection reasons the controller answers with status 400. */
  datatype Reason =
    | InvalidBoardFormat
    | NoOpeningMove
    | DidNotMove
    | ReplacesValue
    | MovedMoreThanOnce
    | NotYourMove

  /** The `reason` string each rejection carries. */
  function ReasonText(r: Reason): string {
    match r
    case InvalidBoardFormat => "Invalid board format"
    case NoOpeningMove => "Please make your move"
    case DidNotMove => "You did not move"
    case ReplacesValue => "Unable to replace values"
    case MovedMoreThanOnce => "Move only once!"
    case NotYourMove => "It is not your move!"
  }

  /** The stored row of a game, without its identifier. */
  datatype Game = Game(board: string, status: Status, userChoice: char)

  /** A value `generateMoveIndex(excludes)` can return: a draw of
      `Math.floor(Math.random() * 10)`, so 0 to 9, that is not excluded. */
  predicate ValidPick(idx: nat, excludes: seq<int>) {
    idx < 10 && idx !in excludes
  }

  /** `generateMoveIndex` unrolled over the successive draws of the random
      source: the first draw that is not excluded.  `None` means the given
      draws ran out, after which the source would keep drawing. */
  function GenerateMoveIndex(excludes: seq<int>, draws: seq<nat>): (r: Option<nat>)
    requires forall k | 0 <= k < |draws| :: draws[k] < 10
    ensures r.Some? ==> ValidPick(r.value, excludes) && r.value in draws
    ensures r.None? <==> forall k | 0 <= k < |draws| :: draws[k] in excludes
    decreases |draws|
  {
    if draws == [] then None
    else if draws[0] in excludes then GenerateMoveIndex(excludes, draws[1..])
    else Some(draws[0])
  }

  /** Every draw before the returned one was excluded: the recursion stops at
      the first admissible draw. */
  lemma {:induction false} GenerateMoveIndexFirst(excludes: seq<int>, draws: seq<nat>, k: nat)
    requires forall j | 0 <= j < |draws| :: draws[j] < 10
    requires k < |draws| && draws[k] !in excludes
    ensures GenerateMoveIndex(excludes, draws).Some?
    ensures (forall j | 0 <= j < k :: draws[j] in excludes) ==>
      GenerateMoveIndex(excludes, draws) == Some(draws[k])
    decreases k
  {
    if k > 0 && draws[0] in excludes {
      GenerateMoveIndexFirst(excludes, draws[1..], k - 1);
      forall j | 0 <= j < k - 1
        ensures draws[1..][j] == draws[j + 1]
      {
      }
    }
  }

  // createNewGame

  /** The random index satisfies `generateMoveIndex` whenever creation
      reaches it: the user's one cell is the only excluded index. */
  predicate CreatePick(board: string, idx: nat) {
    FormatOk(board) && |StripEmpty(board)| == 1 ==>
      ValidPick(idx, [IndexOf(board, StripEmpty(board)[0])])
  }

  /** The logic of `createNewGame`: check the format, require exactly one
      non-empty cell, take its character as the user's mark, write the
      opposite mark at the random index and store the game as RUNNING. */
  function CreateGame(board: string, idx: nat): (r: Result<Game, Reason>)
    requires CreatePick(board, idx)
    ensures r == Failure(InvalidBoardFormat) <==> !FormatOk(board)
    ensures r == Failure(NoOpeningMove) <==> FormatOk(board) && |board| - Count(board, EmptyCell) != 1
    ensures r.Success? <==> FormatOk(board) && |board| - Count(board, EmptyCell) == 1
    ensures r.Success? ==> r.value.status == Running && r.value.userChoice != EmptyCell
    ensures r.Success? ==>
      var g := r.value;
      && idx != IndexOf(board, g.userChoice)
      && (idx < |board| ==> board[idx] == EmptyCell)
      && |g.board| == (if idx < |board| then |board| else |board| + 1)
      && g.board[idx] == Opponent(g.userChoice)
      && (forall k | 0 <= k < |board| && k != idx :: g.board[k] == board[k])
    ensures r.Success? ==> forall k | 0 <= k < |board| && board[k] != EmptyCell :: board[k] == r.value.userChoice
    ensures r.Success? ==>
      Count(r.value.board, r.value.userChoice) == 1 && Count(r.value.board, Opponent(r.value.userChoice)) == 1
  {
    if !FormatOk(board) then Failure(InvalidBoardFormat)
    else
      var choice := StripEmpty(board);
      if |choice| != 1 then Failure(NoOpeningMove)
      else
        var userChoice := choice[0];
        SingleMark(board);
        OpeningCounts(board, userChoice);
        OpeningCounts(board, Opponent(userChoice));
        FormatOkLength(board);
        FillCount(board, idx, Opponent(userChoice), userChoice);
        FillCount(board, idx, Opponent(userChoice), Opponent(userChoice));
        var boardArr := SetAt(board, idx, Opponent(userChoice));
        Success(Game(boardArr, Running, userChoice))
  }

  // editGame

  /** `hasRepleacing` at one index: the submitted cell exists but the stored
      one does not (`undefined !== '-'`), or the stored cell is a mark and the
      submitted one differs from it. */
  predicate ReplacedAt(oldBoard: string, board: string, k: nat) {
    k < |board| && (k >= |oldBoard| || (oldBoard[k] != EmptyCell && board[k] != oldBoard[k]))
  }

  /** `gotBoardArr.some(...)`: some submitted cell replaces a stored one. */
  predicate Replaces(oldBoard: string, board: string) {
    exists k: nat | k < |board| :: ReplacedAt(oldBoard, board, k)
  }

  /** Without a replacement every submitted index exists in the stored
      board and keeps its mark. */
  lemma NoReplacement(oldBoard: string, board: string)
    requires !Replaces(oldBoard, board)
    ensures |board| <= |oldBoard|
    ensures forall k | 0 <= k < |board| && oldBoard[k] != EmptyCell :: board[k] == oldBoard[k]
  {
    if |board| > |oldBoard| {
      assert ReplacedAt(oldBoard, board, |oldBoard|);
    }
    forall k | 0 <= k < |board| && oldBoard[k] != EmptyCell
      ensures board[k] == oldBoard[k]
    {
      assert !ReplacedAt(oldBoard, board, k);
    }
  }

  /** The turn test passes: the user's mark leads the other by exactly one
      (a user choice other than X or O is not tested). */
  predicate TurnTaken(board: string, userChoice: char) {
    && (userChoice == 'X' ==> Count(board, 'X') == Count(board, 'O') + 1)
    && (userChoice == 'O' ==> Count(board, 'O') == Count(board, 'X') + 1)
  }

  /** The checks of `editGame` in their order; `None` when the move is
      accepted. */
  function Validate(oldBoard: string, board: string, userChoice: char): (r: Option<Reason>)
    ensures r == Some(InvalidBoardFormat) <==> !FormatOk(board)
    ensures r == Some(DidNotMove) <==> FormatOk(board) && board == oldBoard
    ensures r == Some(ReplacesValue) <==> FormatOk(board) && board != oldBoard && Replaces(oldBoard, board)
    ensures r == Some(MovedMoreThanOnce) <==>
      FormatOk(board) && board != oldBoard && !Replaces(oldBoard, board)
      && Abs(Count(board, 'X') - Count(board, 'O')) > 1
    ensures r == Some(NotYourMove) <==>
      FormatOk(board) && board != oldBoard && !Replaces(oldBoard, board)
      && Abs(Count(board, 'X') - Count(board, 'O')) <= 1 && !TurnTaken(board, userChoice)
    ensures r.None? <==>
      FormatOk(board) && board != oldBoard && !Replaces(oldBoard, board)
      && Abs(Count(board, 'X') - Count(board, 'O')) <= 1 && TurnTaken(board, userChoice)
    ensures r != Some(NoOpeningMove)
    ensures r.None? ==> FormatOk(board) && board != oldBoard && |board| <= |oldBoard|
    ensures r.None? ==> forall k | 0 <= k < |board| && oldBoard[k] != EmptyCell :: board[k] == oldBoard[k]
    ensures r.None? ==> Abs(Count(board, 'X') - Count(board, 'O')) <= 1
    ensures r.None? && (userChoice == 'X' || userChoice == 'O') ==>
      Count(board, userChoice) == Count(board, Opponent(userChoice)) + 1
  {
    if !FormatOk(board) then Some(InvalidBoardFormat)
    else if board == oldBoard then Some(DidNotMove)
    else if Replaces(oldBoard, board) then Some(ReplacesValue)
    else
      var countXs, countOs := Count(board, 'X'), Count(board, 'O');
      if Abs(countXs - countOs) > 1 then Some(MovedMoreThanOnce)
      else if (userChoice == 'X' && countXs - countOs != 1) || (userChoice == 'O' && countOs - countXs != 1) then
        Some(NotYourMove)
      else
        NoReplacement(oldBoard, board);
        None
  }

  /** The random index satisfies `generateMoveIndex` whenever the edit
      reaches it: accepted, and still RUNNING after the user's move; the
      occupied cells are the excluded indices. */
  predicate EditPick(oldBoard: string, board: string, userChoice: char, idx: nat) {
    Validate(oldBoard, board, userChoice).None? && GameStatus(board) == Running ==>
      ValidPick(idx, Movements(board, |board|))
  }

  /** The logic of `editGame`: validate, classify the submitted board, and
      only while it is RUNNING add the opponent's mark at the random index and
      classify again. */
  function EditGame(oldBoard: string, board: string, userChoice: char, idx: nat): (r: Result<Game, Reason>)
    requires EditPick(oldBoard, board, userChoice, idx)
    ensures r.Failure? <==> Validate(oldBoard, board, userChoice).Some?
    ensures r.Failure? ==> Validate(oldBoard, board, userChoice) == Some(r.error)
    ensures r.Success? ==> r.value.userChoice == userChoice
    ensures r.Success? && GameStatus(board) != Running ==>
      r.value.board == board && r.value.status == GameStatus(board)
    ensures r.Success? && GameStatus(board) == Running ==>
      var final := r.value.board;
      && (idx < |board| ==> board[idx] == EmptyCell)
      && |final| == (if idx < |board| then |board| else |board| + 1)
      && final[idx] == Opponent(userChoice)
      && (forall k | 0 <= k < |board| && k != idx :: final[k] == board[k])
      && r.value.status == GameStatus(final)
    ensures r.Success? ==> forall k | 0 <= k < |board| && oldBoard[k] != EmptyCell :: r.value.board[k] == oldBoard[k]
  {
    match Validate(oldBoard, board, userChoice)
    case Some(reason) => Failure(reason)
    case None =>
      var status := GameStatus(board);
      if status != Running then Success(Game(board, status, userChoice))
      else
        FormatOkLength(board);
        var gotBoardArr := SetAt(board, idx, Opponent(userChoice));
        Success(Game(gotBoardArr, GameStatus(gotBoardArr), userChoice))
  }

  // Properties of an accepted edit.

  /** The counts after an accepted edit: the user's mark leads by one on a
      finished board, and the opponent's reply restores equality on a
      running one. */
  lemma EditBalance(oldBoard: string, board: string, userChoice: char, idx: nat)
    requires EditPick(oldBoard, board, userChoice, idx)
    requires userChoice == 'X' || userChoice == 'O'
    ensures var r := EditGame(oldBoard, board, userChoice, idx);
      r.Success? && GameStatus(board) == Running ==>
        Count(r.value.board, userChoice) == Count(r.value.board, Opponent(userChoice))
    ensures var r := EditGame(oldBoard, board, userChoice, idx);
      r.Success? && GameStatus(board) != Running ==>
        Count(r.value.board, userChoice) == Count(r.value.board, Opponent(userChoice)) + 1
  {
    if EditGame(oldBoard, board, userChoice, idx).Success? && GameStatus(board) == Running {
      FormatOkLength(board);
      FillCount(board, idx, Opponent(userChoice), userChoice);
      FillCount(board, idx, Opponent(userChoice), Opponent(userChoice));
    }
  }

  // Outcomes that let concrete boards avoid unfolding the engine.

  /** The game stored by a creation that passes both checks. */
  lemma CreateOpening(board: string, idx: nat)
    requires FormatOk(board) && |StripEmpty(board)| == 1 && CreatePick(board, idx)
    ensures CreateGame(board, idx)
      == Success(Game(SetAt(board, idx, Opponent(StripEmpty(board)[0])), Running, StripEmpty(board)[0]))
  {
  }

  /** A submitted board that passes every check of the edit. */
  lemma Accepted(oldBoard: string, board: string, userChoice: char)
    requires FormatOk(board) && board != oldBoard && !Replaces(oldBoard, board)
    requires Abs(Count(board, 'X') - Count(board, 'O')) <= 1 && TurnTaken(board, userChoice)
    ensures Validate(oldBoard, board, userChoice) == None
  {
  }

  /** The game stored by an accepted edit that finishes the game. */
  lemma EditFinishes(oldBoard: string, board: string, userChoice: char, idx: nat)
    requires Validate(oldBoard, board, userChoice).None? && GameStatus(board) != Running
    ensures EditPick(oldBoard, board, userChoice, idx)
    ensures EditGame(oldBoard, board, userChoice, idx) == Success(Game(board, GameStatus(board), userChoice))
  {
  }

  /** The game stored by an accepted edit of a board still RUNNING. */
  lemma EditContinues(oldBoard: string, board: string, userChoice: char, idx: nat)
    requires Validate(oldBoard, board, userChoice).None? && GameStatus(board) == Running
    requires EditPick(oldBoard, board, userChoice, idx)
    ensures var final := SetAt(board, idx, Opponent(userChoice));
      EditGame(oldBoard, board, userChoice, idx) == Success(Game(final, GameStatus(final), userChoice))
  {
  }
}

=== FILE: findings.dfy ===
/** Where the controller as written departs from the game it serves, each
    shown on a concrete board or proved for a whole class of boards.  The
    corrected behaviour is modelled in `Intended`. */
module Findings {
  import opened Wrappers
  import opened Board
  import opened GameStatusAsWritten
  import opened Detection
  import opened Classification
  import opened Engine
  import opened Scenarios
  import opened Intended

  // DRAW is declared with empty cells left.

  /** The draw case of the test suite: DRAW is returned with two empty
      cells, and O could still complete the top row at cell 2. */
  lemma PrematureDraw()
    ensures GameStatus("OO-XOXX-X") == Draw
    ensures Count("OO-XOXX-X", EmptyCell) == 2
    ensures Complete(SetAt("OO-XOXX-X", 2, 'O'), 'O', Line(0, 1, 2))
  {
    DrawStatus();
  }

  // Columns and diagonals are missed when a same mark lies inside them.

  /** X holds the whole 0-4-8 diagonal, but its index string is "0148", so
      no pattern matches and the board is declared a DRAW with two empty
      cells left. */
  lemma MissedDiagonal()
    ensures Complete("XXO-X-OOX", 'X', Line(0, 4, 8))
    ensures GameStatus("XXO-X-OOX") == Draw
  {
    MissedDiagonalCells();
    GameStatusExact("XXO-X-OOX");
  }

  lemma MissedDiagonalCells()
    ensures MovementsCount("XXO-X-OOX") == 7
    ensures !DetectedSome("XXO-X-OOX", 'X') && !DetectedSome("XXO-X-OOX", 'O')
  {
    MissedDiagonalX();
    MissedDiagonalO();
  }

  lemma MissedDiagonalX()
    ensures !DetectedSome("XXO-X-OOX", 'X')
  {
    assert Holds("XXO-X-OOX", 'X', 1);
    DetectedSomeUnrolled("XXO-X-OOX", 'X');
  }

  lemma MissedDiagonalO()
    ensures !DetectedSome("XXO-X-OOX", 'O')
  {
    DetectedSomeUnrolled("XXO-X-OOX", 'O');
  }

  // The unanchored format check lets longer boards through, and on them
  // two-digit indices fake a line.

  /** Cells without m contribute nothing to the index string. */
  lemma {:induction false} NoMarkNoIndexes(arr: string, m: char, n: nat)
    requires n <= |arr| && forall k | 0 <= k < n :: arr[k] != m
    ensures IndexString(arr, m, n) == ""
  {
    if n > 0 {
      NoMarkNoIndexes(arr, m, n - 1);
    }
  }

  lemma LongBoardIndexes()
    ensures Indexes("-O-O--O-OXX-X", 'X') == "91012"
  {
    var b := "-O-O--O-OXX-X";
    NoMarkNoIndexes(b, 'X', 9);
    assert Decimal(10) == "10";
    assert Decimal(12) == "12";
    assert IndexString(b, 'X', 10) == "9";
    assert IndexString(b, 'X', 11) == "910";
    assert IndexString(b, 'X', 12) == "910";
  }

  lemma LongBoardDetects()
    ensures DetectsWin(Indexes("-O-O--O-OXX-X", 'X'))
  {
    LongBoardIndexes();
    assert Patterns[0] == "012";
    assert OccursAt("91012", "012", 2);
  }

  lemma LongBoardNoLine()
    ensures !HasLine("-O-O--O-OXX-X", 'X')
  {
    var b := "-O-O--O-OXX-X";
    assert !Holds(b, 'X', 0) && !Holds(b, 'X', 1) && !Holds(b, 'X', 2) && !Holds(b, 'X', 3) && !Holds(b, 'X', 6);
  }

  /** X sits at 9, 10 and 12, outside every line, yet "91012" contains
      "012" and X is declared the winner. */
  lemma LongBoardFalseWin()
    ensures GameStatus("-O-O--O-OXX-X") == XWon
    ensures !HasLine("-O-O--O-OXX-X", 'X')
  {
    assert MovementsCount("-O-O--O-OXX-X") == 7;
    LongBoardDetects();
    LongBoardNoLine();
  }

  /** A thirteen-cell board passes creation: its first nine cells match
      the format, and the opponent's mark lands at index 9. */
  lemma LongBoardCreate()
    ensures CreatePick("---O---------", 9)
    ensures CreateGame("---O---------", 9) == Success(Game("---O-----X---", Running, 'O'))
  {
    LongBoardPickOk();
    LongBoardOpening();
    LongBoardWrite();
    CreateOpening("---O---------", 9);
  }

  lemma LongBoardPickOk()
    ensures CreatePick("---O---------", 9)
  {
    LongBoardOpening();
    LongBoardPick();
  }

  lemma LongBoardPick()
    ensures IndexOf("---O---------", 'O') == 3
  {
  }

  lemma LongBoardWrite()
    ensures SetAt("---O---------", 9, 'X') == "---O-----X---"
  {
    assert "---O---------"[9 := 'X'] == "---O-----X---";
  }

  lemma LongBoardOpening()
    ensures FormatOk("---O---------") && StripEmpty("---O---------") == "O"
  {
    var b := "---O---------";
    assert RunAt(b, 0);
    assert multiset(b)[EmptyCell := 0] == multiset{'O'};
    StripSingleton(b, 'O');
  }

  /** The O player of that game submits a board with three more O and two
      more X; the edit is accepted and X is declared the winner. */
  lemma LongBoardEdit()
    ensures EditPick("---O-----X---", "-O-O--O-OXX-X", 'O', 0)
    ensures EditGame("---O-----X---", "-O-O--O-OXX-X", 'O', 0) == Success(Game("-O-O--O-OXX-X", XWon, 'O'))
  {
    LongBoardValid();
    LongBoardFalseWin();
    EditFinishes("---O-----X---", "-O-O--O-OXX-X", 'O', 0);
  }

  lemma LongBoardValid()
    ensures Validate("---O-----X---", "-O-O--O-OXX-X", 'O') == None
  {
    assert RunAt("-O-O--O-OXX-X", 0);
    LongBoardKeepsMarks();
    LongBoardCounts();
    Accepted("---O-----X---", "-O-O--O-OXX-X", 'O');
  }

  lemma LongBoardKeepsMarks()
    ensures !Replaces("---O-----X---", "-O-O--O-OXX-X")
  {
    var prev, b := "---O-----X---", "-O-O--O-OXX-X";
    forall k: nat | k < |b|
      ensures !ReplacedAt(prev, b, k)
    {
      assert k == 0 || k == 1 || k == 2 || k == 3 || k == 4 || k == 5 || k == 6 || k == 7 || k == 8 || k == 9 || k == 10 || k == 11 || k == 12;
    }
  }

  lemma LongBoardCounts()
    ensures Count("-O-O--O-OXX-X", 'X') == 3 && Count("-O-O--O-OXX-X", 'O') == 4
  {
  }

  // The random index can be 9, one past the last cell.

  /** On every nine-cell opening board index 9 is a pick the generator can
      return, and it appends a tenth cell: the stored board leaves the
      format of the game, and the status can never again be DRAW while it
      keeps ten cells. */
  lemma NineGrowsBoard(board: string)
    requires |board| == 9 && FormatOk(board) && |StripEmpty(board)| == 1
    ensures CreatePick(board, 9)
    ensures CreateGame(board, 9).Success?
    ensures var g := CreateGame(board, 9).value;
      |g.board| == 10 && g.board[..9] == board && g.board[9] == Opponent(g.userChoice)
  {
    var g := CreateGame(board, 9).value;
    assert g.board[..9] == board;
  }

  /** On a grown board the next request may drop the tenth cell: only the
      submitted indices are compared with the stored ones, so the
      opponent's mark at 9 vanishes and reappears at 8. */
  lemma GrownBoardTruncated()
    ensures Validate("X--------O", "XX------O", 'X') == None
  {
    assert RunAt("XX------O", 0);
    GrownKeeps();
    GrownCounts();
    Accepted("X--------O", "XX------O", 'X');
  }

  lemma GrownKeeps()
    ensures !Replaces("X--------O", "XX------O")
  {
    var prev, b := "X--------O", "XX------O";
    forall k: nat | k < |b|
      ensures !ReplacedAt(prev, b, k)
    {
      assert k == 0 || k == 1 || k == 2 || k == 3 || k == 4 || k == 5 || k == 6 || k == 7 || k == 8;
    }
  }

  lemma GrownCounts()
    ensures Count("XX------O", 'X') == 2 && Count("XX------O", 'O') == 1
  {
  }

  // The edit accepts several marks at once.

  /** After the opening "--X----O-" the X player places X at 0 and 1 and an
      O at 3 in one request; the counts still differ by one, so the edit is
      accepted and X wins on that same request. */
  lemma TwoMarksInOneTurn()
    ensures EditPick("--X----O-", "XXXO---O-", 'X', 0)
    ensures EditGame("--X----O-", "XXXO---O-", 'X', 0) == Success(Game("XXXO---O-", XWon, 'X'))
  {
    TwoMarksAccepted();
    TwoMarksStatus();
    EditFinishes("--X----O-", "XXXO---O-", 'X', 0);
  }

  lemma TwoMarksAccepted()
    ensures Validate("--X----O-", "XXXO---O-", 'X') == None
  {
    assert RunAt("XXXO---O-", 0);
    TwoMarksKeeps();
    TwoMarksCounts();
    Accepted("--X----O-", "XXXO---O-", 'X');
  }

  lemma TwoMarksKeeps()
    ensures !Replaces("--X----O-", "XXXO---O-")
  {
    var prev, b := "--X----O-", "XXXO---O-";
    forall k: nat | k < |b|
      ensures !ReplacedAt(prev, b, k)
    {
      assert k == 0 || k == 1 || k == 2 || k == 3 || k == 4 || k == 5 || k == 6 || k == 7 || k == 8;
    }
  }

  lemma TwoMarksCounts()
    ensures Count("XXXO---O-", 'X') == 3 && Count("XXXO---O-", 'O') == 2
    ensures Count("XXXO---O-", EmptyCell) == 4
  {
  }

  lemma TwoMarksStatus()
    ensures GameStatus("XXXO---O-") == XWon
  {
    TwoMarksCounts();
    CompleteRowWins("XXXO---O-", 'X', 0);
  }

  // The same boards under the corrected rules.

  /** With two cells empty and no line the game goes on. */
  lemma PrematureDrawCorrected()
    ensures IntendedStatus("OO-XOXX-X") == Running
  {
    assert !LineFrom("OO-XOXX-X", 'X', 0) && !LineFrom("OO-XOXX-X", 'O', 0);
    assert "OO-XOXX-X"[2] == EmptyCell;
  }

  /** The diagonal is a win for X. */
  lemma MissedDiagonalCorrected()
    ensures IntendedStatus("XXO-X-OOX") == XWon
  {
    assert Lines[1] == Line(0, 4, 8);
  }

  /** Boards of any other length than nine are rejected outright. */
  lemma LongBoardCorrected()
    ensures IntendedCreate("---O---------", 9) == Failure(InvalidBoardFormat)
    ensures IntendedValidate("---O-----X---", "-O-O--O-OXX-X", 'O') == Some(InvalidBoardFormat)
  {
  }

  /** Two marks of the user and one of the opponent's in one request are
      refused. */
  lemma TwoMarksCorrected()
    ensures IntendedValidate("--X----O-", "XXXO---O-", 'X') == Some(MovedMoreThanOnce)
  {
    TwoMarksKeeps();
    TwoMarksChanged();
    TwoMarksExact();
    SeveralChanges("--X----O-", "XXXO---O-", 'X');
  }

  lemma TwoMarksExact()
    ensures ExactFormat("XXXO---O-") && "XXXO---O-" != "--X----O-"
  {
    assert "XXXO---O-"[0] != "--X----O-"[0];
  }

  /** A board that passes the earlier checks but changes more than one
      cell is refused as a multiple move. */
  lemma SeveralChanges(oldBoard: string, board: string, userChoice: char)
    requires ExactFormat(board) && board != oldBoard && |oldBoard| == |board| && !Replaces(oldBoard, board)
    requires |Changed(oldBoard, board, |board|)| != 1
    ensures IntendedValidate(oldBoard, board, userChoice) == Some(MovedMoreThanOnce)
  {
  }

  lemma TwoMarksChanged()
    ensures Changed("--X----O-", "XXXO---O-", 9) == [0, 1, 3]
  {
  }

  // A finished game still takes moves.

  /** The edit reads only the stored board and mark, never the stored
      status, so a game O has already won accepts X's next mark, and X_WON
      replaces O_WON. */
  lemma FinishedGameReopened()
    ensures GameStatus("OOOXX-X--") == OWon
    ensures EditPick("OOOXX-X--", "OOOXXXX--", 'X', 0)
    ensures EditGame("OOOXX-X--", "OOOXXXX--", 'X', 0) == Success(Game("OOOXXXX--", XWon, 'X'))
  {
    ReopenedStatus();
    ReopenedAccepted();
    ReopenedWins();
    EditFinishes("OOOXX-X--", "OOOXXXX--", 'X', 0);
  }

  lemma ReopenedStatus()
    ensures GameStatus("OOOXX-X--") == OWon
  {
    ReopenedCells();
    GameStatusExact("OOOXX-X--");
  }

  lemma ReopenedCells()
    ensures MovementsCount("OOOXX-X--") == 6
    ensures !DetectedSome("OOOXX-X--", 'X') && DetectedSome("OOOXX-X--", 'O')
  {
    ReopenedX();
    ReopenedO();
  }

  lemma ReopenedX()
    ensures !DetectedSome("OOOXX-X--", 'X')
  {
    DetectedSomeUnrolled("OOOXX-X--", 'X');
  }

  lemma ReopenedO()
    ensures DetectedSome("OOOXX-X--", 'O')
  {
    assert Detected("OOOXX-X--", 'O', Lines[0]);
  }

  lemma ReopenedAccepted()
    ensures Validate("OOOXX-X--", "OOOXXXX--", 'X') == None
  {
    assert RunAt("OOOXXXX--", 0);
    ReopenedKeeps();
    ReopenedCounts();
    Accepted("OOOXX-X--", "OOOXXXX--", 'X');
  }

  lemma ReopenedKeeps()
    ensures !Replaces("OOOXX-X--", "OOOXXXX--")
  {
    var prev, b := "OOOXX-X--", "OOOXXXX--";
    forall k: nat | k < |b|
      ensures !ReplacedAt(prev, b, k)
    {
      assert k == 0 || k == 1 || k == 2 || k == 3 || k == 4 || k == 5 || k == 6 || k == 7 || k == 8;
    }
  }

  lemma ReopenedCounts()
    ensures Count("OOOXXXX--", 'X') == 4 && Count("OOOXXXX--", 'O') == 3
    ensures Count("OOOXXXX--", EmptyCell) == 2 && MovementsCount("OOOXXXX--") == 7
  {
  }

  lemma ReopenedWins()
    ensures GameStatus("OOOXXXX--") == XWon
  {
    ReopenedCounts();
    CompleteRowWins("OOOXXXX--", 'X', 1);
  }

  /** With the stored status read, the same request on the game O has won
      is refused and the result stands. */
  lemma FinishedGameCorrected()
    ensures IntendedPlay(Game("OOOXX-X--", OWon, 'X'), "OOOXXXX--", 0) == Failure(GameOver)
  {
  }
}

=== FILE: intended.dfy ===
/** The rules the controller evidently means to enforce, with the defects
    shown in `Findings` corrected: the board is exactly nine cells, a line
    is any completed row, column or diagonal, DRAW needs a full board, an
    edit adds exactly one mark of the player's own, and the opponent's
    index stays inside the board. */
module Intended {
  import opened Wrappers
  import opened Board
  import opened GameStatusAsWritten
  import opened Detection
  import opened Classification
  import opened Engine

  // Format

  /** The anchored form of the format check: nine cells and nothing else. */
  predicate ExactFormat(s: string) {
    |s| == 9 && forall k | 0 <= k < 9 :: IsCell(s[k])
  }

  /** The anchored check is the unanchored one restricted to nine
      characters. */
  lemma ExactFormatIff(s: string)
    ensures ExactFormat(s) <==> |s| == 9 && FormatOk(s)
  {
    if |s| == 9 {
      NineCellsIff(s);
    }
  }

  // Status

  /** Some line among `Lines[k..]` is complete for m. */
  function LineFrom(arr: string, m: char, k: nat): (r: bool)
    requires k <= |Lines|
    ensures r <==> exists j | k <= j < |Lines| :: Complete(arr, m, Lines[j])
    decreases |Lines| - k
  {
    k < |Lines| && (Complete(arr, m, Lines[k]) || LineFrom(arr, m, k + 1))
  }

  /** The status by the rules: a completed line wins (X checked first, as
      in the controller), a full board without a line is a draw, anything
      else is still running. */
  function IntendedStatus(arr: string): (r: Status)
    ensures r == XWon <==> HasLine(arr, 'X')
    ensures r == OWon <==> !HasLine(arr, 'X') && HasLine(arr, 'O')
    ensures r == Draw <==> !HasLine(arr, 'X') && !HasLine(arr, 'O') && EmptyCell !in arr
    ensures r == Running <==> !HasLine(arr, 'X') && !HasLine(arr, 'O') && EmptyCell in arr
  {
    if LineFrom(arr, 'X', 0) then XWon
    else if LineFrom(arr, 'O', 0) then OWon
    else if EmptyCell !in arr then Draw
    else Running
  }

  /** Nine cells without an empty one are nine movements. */
  lemma FullBoardMovements(s: string)
    requires EmptyCell !in s
    ensures MovementsCount(s) == |s|
  {
    assert Count(s, EmptyCell) == 0;
  }

  /** Where the controller's status and the intended one meet on nine-cell
      boards: every win it reports is a real one (X's for X), a real draw is
      reported as DRAW, and its early RUNNING is right while the counts are
      balanced. */
  lemma StatusAgreement(arr: string)
    requires |arr| == 9
    ensures GameStatus(arr) == XWon ==> IntendedStatus(arr) == XWon
    ensures GameStatus(arr) == OWon ==> IntendedStatus(arr) == XWon || IntendedStatus(arr) == OWon
    ensures IntendedStatus(arr) == Draw ==> GameStatus(arr) == Draw
    ensures Abs(Count(arr, 'X') - Count(arr, 'O')) <= 1 && GameStatus(arr) == Running ==>
      IntendedStatus(arr) == Running
  {
    GameStatusSound(arr);
    GameStatusExact(arr);
    if IntendedStatus(arr) == Draw {
      FullBoardMovements(arr);
    }
    if Abs(Count(arr, 'X') - Count(arr, 'O')) <= 1 && GameStatus(arr) == Running {
      EarlyExitSound(arr);
      assert Count(arr, EmptyCell) > 0;
    }
  }

  // The opponent's index

  /** What a generator drawing `Math.floor(Math.random() * 9)` can return:
      an index inside the board that is not excluded. */
  predicate IntendedPick(idx: nat, excludes: seq<int>) {
    idx < 9 && idx !in excludes
  }

  /** While a nine-cell board is RUNNING there is an empty cell, so the
      generator has something to return and does not recurse forever. */
  lemma PickExists(board: string)
    requires ExactFormat(board) && IntendedStatus(board) == Running
    ensures exists idx: nat :: IntendedPick(idx, Movements(board, 9))
  {
    var k :| 0 <= k < |board| && board[k] == EmptyCell;
    assert IntendedPick(k, Movements(board, 9));
  }

  // Creation

  /** The index of the user's single mark is the only one excluded. */
  predicate CreatePickIntended(board: string, idx: nat) {
    ExactFormat(board) && |StripEmpty(board)| == 1 ==>
      IntendedPick(idx, [IndexOf(board, StripEmpty(board)[0])])
  }

  /** A game that is still being played: nine cells, the user plays X or O,
      both have the same number of marks (the opponent has just replied),
      and no line is complete yet. */
  predicate Ongoing(g: Game) {
    && ExactFormat(g.board)
    && (g.userChoice == 'X' || g.userChoice == 'O')
    && Count(g.board, g.userChoice) == Count(g.board, Opponent(g.userChoice))
    && g.status == Running
    && IntendedStatus(g.board) == Running
  }

  /** Fewer than three marks of each kind complete no line. */
  lemma NoLineYet(arr: string)
    requires Count(arr, 'X') < 3 && Count(arr, 'O') < 3
    ensures !HasLine(arr, 'X') && !HasLine(arr, 'O')
  {
    forall k | 0 <= k < |Lines|
      ensures !Complete(arr, 'X', Lines[k]) && !Complete(arr, 'O', Lines[k])
    {
      LineCount(arr, 'X', Lines[k]);
      LineCount(arr, 'O', Lines[k]);
    }
  }

  /** The board creation stores is ongoing: two marks, one of each kind,
      and seven empty cells. */
  lemma OpeningOngoing(board: string, idx: nat)
    requires ExactFormat(board) && |StripEmpty(board)| == 1
    requires IntendedPick(idx, [IndexOf(board, StripEmpty(board)[0])])
    ensures var uc := StripEmpty(board)[0];
      Ongoing(Game(SetAt(board, idx, Opponent(uc)), Running, uc))
  {
    var uc := StripEmpty(board)[0];
    var p := IndexOf(board, uc);
    SingleMark(board);
    assert IsCell(board[p]);
    OpeningCounts(board, uc);
    OpeningCounts(board, Opponent(uc));
    WriteMark(board, idx, Opponent(uc));
    var boardArr := SetAt(board, idx, Opponent(uc));
    NoLineYet(boardArr);
    var k := if p != 0 && idx != 0 then 0 else if p != 1 && idx != 1 then 1 else 2;
    assert boardArr[k] == EmptyCell;
  }

  /** Creation with the anchored check and an index inside the board: the
      game it stores is ongoing. */
  function IntendedCreate(board: string, idx: nat): (r: Result<Game, Reason>)
    requires CreatePickIntended(board, idx)
    ensures r == Failure(InvalidBoardFormat) <==> !ExactFormat(board)
    ensures r == Failure(NoOpeningMove) <==> ExactFormat(board) && |board| - Count(board, EmptyCell) != 1
    ensures r.Success? <==> ExactFormat(board) && |board| - Count(board, EmptyCell) == 1
    ensures r.Success? ==> Ongoing(r.value)
    ensures r.Success? ==> |r.value.board| == 9 && r.value.board[idx] == Opponent(r.value.userChoice)
    ensures r.Success? ==> forall k | 0 <= k < 9 && k != idx :: r.value.board[k] == board[k]
    ensures r.Success? ==> forall k | 0 <= k < 9 && board[k] != EmptyCell :: board[k] == r.value.userChoice
  {
    if !ExactFormat(board) then Failure(InvalidBoardFormat)
    else
      var choice := StripEmpty(board);
      if |choice| != 1 then Failure(NoOpeningMove)
      else
        var userChoice := choice[0];
        SingleMark(board);
        OpeningOngoing(board, idx);
        Success(Game(SetAt(board, idx, Opponent(userChoice)), Running, userChoice))
  }

  // Editing

  /** The indices below n whose cell differs between the two boards, in
      ascending order. */
  function Changed(oldBoard: string, board: string, n: nat): (r: seq<nat>)
    requires n <= |oldBoard| && n <= |board|
    ensures forall j | 0 <= j < |r| :: r[j] < n && board[r[j]] != oldBoard[r[j]]
    decreases n
  {
    if n == 0 then []
    else Changed(oldBoard, board, n - 1) + (if board[n - 1] != oldBoard[n - 1] then [n - 1] else [])
  }

  /** Every differing cell below n is listed. */
  lemma {:induction false} ChangedComplete(oldBoard: string, board: string, n: nat, i: nat)
    requires n <= |oldBoard| && n <= |board|
    requires i < n && board[i] != oldBoard[i]
    ensures i in Changed(oldBoard, board, n)
    decreases n
  {
    if i < n - 1 {
      ChangedComplete(oldBoard, board, n - 1, i);
    }
  }

  /** When k is the only index where the boards differ, the changed cells
      below n are k alone, once n passes it. */
  lemma {:induction false} ChangedSingle(oldBoard: string, board: string, k: nat, n: nat)
    requires n <= |oldBoard| && n <= |board| && k < |board| && k < |oldBoard|
    requires forall j | 0 <= j < |board| && j < |oldBoard| && j != k :: board[j] == oldBoard[j]
    requires board[k] != oldBoard[k]
    ensures Changed(oldBoard, board, n) == if n <= k then [] else [k]
    decreases n
  {
    if n > 0 {
      ChangedSingle(oldBoard, board, k, n - 1);
    }
  }

  /** One legal move: the user's mark written into an empty cell of a
      nine-cell board, nothing else changed. */
  predicate LegalMove(oldBoard: string, board: string, userChoice: char, k: nat) {
    && |oldBoard| == 9 && k < 9
    && oldBoard[k] == EmptyCell
    && (userChoice == 'X' || userChoice == 'O')
    && board == SetAt(oldBoard, k, userChoice)
    && ExactFormat(board)
  }

  /** The shape of a legal move as the checks see it: same length, a
      different board, no replaced mark, and k the one changed cell, now
      holding the user's mark. */
  lemma LegalMoveShape(oldBoard: string, board: string, userChoice: char, k: nat)
    requires LegalMove(oldBoard, board, userChoice, k)
    ensures |oldBoard| == |board| && board != oldBoard && !Replaces(oldBoard, board)
    ensures Changed(oldBoard, board, |board|) == [k] && board[k] == userChoice
  {
    ChangedSingle(oldBoard, board, k, |board|);
    forall j: nat | j < |board|
      ensures !ReplacedAt(oldBoard, board, j)
    {
    }
  }

  /** Every legal move has that shape. */
  lemma LegalMovesShape(oldBoard: string, board: string, userChoice: char)
    ensures forall k: nat | LegalMove(oldBoard, board, userChoice, k) ::
      && |oldBoard| == |board| && board != oldBoard && !Replaces(oldBoard, board)
      && Changed(oldBoard, board, |board|) == [k] && board[k] == userChoice
  {
    forall k: nat | LegalMove(oldBoard, board, userChoice, k)
      ensures |oldBoard| == |board| && board != oldBoard && !Replaces(oldBoard, board)
      ensures Changed(oldBoard, board, |board|) == [k] && board[k] == userChoice
    {
      LegalMoveShape(oldBoard, board, userChoice, k);
    }
  }

  /** One changed cell holding the user's mark, with no mark replaced, is a
      legal move. */
  lemma ChangeIsMove(oldBoard: string, board: string, userChoice: char, k: nat)
    requires ExactFormat(board) && |oldBoard| == |board| && !Replaces(oldBoard, board)
    requires Changed(oldBoard, board, |board|) == [k] && k < |board| && board[k] == userChoice
    ensures LegalMove(oldBoard, board, userChoice, k)
  {
    var changed := Changed(oldBoard, board, |board|);
    assert changed[0] == k;
    assert k < |board| && board[k] != oldBoard[k];
    FilledCell(oldBoard, board, k);
    OnlyChangeAt(oldBoard, board, k);
    UpdateEq(oldBoard, board, k, userChoice);
  }

  /** A changed cell that replaces nothing was empty and now holds a mark. */
  lemma FilledCell(oldBoard: string, board: string, k: nat)
    requires ExactFormat(board) && |oldBoard| == |board| && !Replaces(oldBoard, board)
    requires k < |board| && board[k] != oldBoard[k]
    ensures oldBoard[k] == EmptyCell && (board[k] == 'X' || board[k] == 'O')
  {
    assert !ReplacedAt(oldBoard, board, k);
    assert IsCell(board[k]);
  }

  /** A sequence that agrees with s everywhere except at k, where it holds
      c, is s with k set to c. */
  lemma UpdateEq(s: string, t: string, k: nat, c: char)
    requires |s| == |t| && k < |s| && t[k] == c
    requires forall j | 0 <= j < |t| && j != k :: t[j] == s[j]
    ensures t == s[k := c]
  {
  }

  /** The one listed index is the only cell that differs. */
  lemma OnlyChangeAt(oldBoard: string, board: string, k: nat)
    requires |oldBoard| == |board| && Changed(oldBoard, board, |board|) == [k]
    ensures forall j | 0 <= j < |board| && j != k :: board[j] == oldBoard[j]
  {
    forall j | 0 <= j < |board| && j != k
      ensures board[j] == oldBoard[j]
    {
      if board[j] != oldBoard[j] {
        ChangedComplete(oldBoard, board, |board|, j);
        assert false;
      }
    }
  }

  /** The checks of the edit with the defects removed: the anchored format,
      the same length as the stored board, and exactly one changed cell,
      which must now hold the user's mark.  The reasons keep the
      controller's order. */
  function IntendedValidate(oldBoard: string, board: string, userChoice: char): (r: Option<Reason>)
    ensures r == Some(InvalidBoardFormat) <==> !ExactFormat(board)
    ensures r == Some(DidNotMove) <==> ExactFormat(board) && board == oldBoard
    ensures r.None? <==> exists k: nat :: LegalMove(oldBoard, board, userChoice, k)
  {
    LegalMovesShape(oldBoard, board, userChoice);
    if !ExactFormat(board) then Some(InvalidBoardFormat)
    else if board == oldBoard then Some(DidNotMove)
    else if |oldBoard| != |board| || Replaces(oldBoard, board) then Some(ReplacesValue)
    else
      var changed := Changed(oldBoard, board, |board|);
      if |changed| != 1 then Some(MovedMoreThanOnce)
      else if board[changed[0]] != userChoice then Some(NotYourMove)
      else
        assert changed == [changed[0]];
        ChangeIsMove(oldBoard, board, userChoice, changed[0]);
        None
  }

  /** The random index satisfies the corrected generator whenever the edit
      reaches it. */
  predicate EditPickIntended(oldBoard: string, board: string, userChoice: char, idx: nat) {
    IntendedValidate(oldBoard, board, userChoice).None? && IntendedStatus(board) == Running ==>
      IntendedPick(idx, Movements(board, |board|))
  }

  /** The edit with the corrected checks, status and index. */
  function IntendedEdit(oldBoard: string, board: string, userChoice: char, idx: nat): (r: Result<Game, Reason>)
    requires EditPickIntended(oldBoard, board, userChoice, idx)
    ensures r.Failure? <==> IntendedValidate(oldBoard, board, userChoice).Some?
    ensures r.Failure? ==> IntendedValidate(oldBoard, board, userChoice) == Some(r.error)
    ensures r.Success? ==> r.value.userChoice == userChoice && r.value.status == IntendedStatus(r.value.board)
    ensures r.Success? && IntendedStatus(board) != Running ==> r.value.board == board
    ensures r.Success? && IntendedStatus(board) == Running ==>
      idx < 9 && board[idx] == EmptyCell && r.value.board == SetAt(board, idx, Opponent(userChoice))
  {
    match IntendedValidate(oldBoard, board, userChoice)
    case Some(reason) => Failure(reason)
    case None =>
      var status := IntendedStatus(board);
      if status != Running then Success(Game(board, status, userChoice))
      else
        var gotBoardArr := SetAt(board, idx, Opponent(userChoice));
        Success(Game(gotBoardArr, IntendedStatus(gotBoardArr), userChoice))
  }

  /** Writing mark c into an empty cell of a nine-cell board: still nine
      cells, one more c, the other counts unchanged, every mark kept. */
  lemma WriteMark(board: string, idx: nat, c: char)
    requires ExactFormat(board) && idx < 9 && board[idx] == EmptyCell && (c == 'X' || c == 'O')
    ensures var after := SetAt(board, idx, c);
      && ExactFormat(after)
      && Count(after, c) == Count(board, c) + 1
      && Count(after, Opponent(c)) == Count(board, Opponent(c))
      && (forall j | 0 <= j < 9 && board[j] != EmptyCell :: after[j] == board[j])
  {
    FillCount(board, idx, c, c);
    FillCount(board, idx, c, Opponent(c));
    var after := SetAt(board, idx, c);
    forall j | 0 <= j < 9
      ensures IsCell(after[j])
    {
    }
  }

  /** The lifecycle invariant: an accepted edit of an ongoing game stores
      nine cells, keeps every stored mark, leaves the user's mark at most
      one ahead, declares DRAW only on a full board, and when the game goes
      on it is ongoing again. */
  lemma EditKeepsOngoing(g: Game, board: string, idx: nat)
    requires Ongoing(g) && EditPickIntended(g.board, board, g.userChoice, idx)
    requires IntendedEdit(g.board, board, g.userChoice, idx).Success?
    ensures var h := IntendedEdit(g.board, board, g.userChoice, idx).value;
      && ExactFormat(h.board)
      && (forall k | 0 <= k < 9 && g.board[k] != EmptyCell :: h.board[k] == g.board[k])
      && Count(h.board, Opponent(g.userChoice)) <= Count(h.board, g.userChoice) <= Count(h.board, Opponent(g.userChoice)) + 1
      && (h.status == Draw ==> EmptyCell !in h.board)
      && (h.status == Running ==> Ongoing(h))
  {
    var uc := g.userChoice;
    var k :| LegalMove(g.board, board, uc, k);
    WriteMark(g.board, k, uc);
    if IntendedStatus(board) == Running {
      WriteMark(board, idx, Opponent(uc));
    }
  }

  /** Why the corrected edit refuses a request: one of the controller's
      reasons, or a game whose stored status is no longer RUNNING. */
  datatype Refusal = Invalid(reason: Reason) | GameOver

  /** The corrected edit as a whole: the stored game, status included, is
      read first, and a finished game takes no further moves.  A running
      game is edited by `IntendedEdit`. */
  function IntendedPlay(g: Game, board: string, idx: nat): (r: Result<Game, Refusal>)
    requires g.status == Running ==> EditPickIntended(g.board, board, g.userChoice, idx)
    ensures r == Failure(GameOver) <==> g.status != Running
    ensures g.status == Running ==>
      (r.Failure? <==> IntendedValidate(g.board, board, g.userChoice).Some?)
    ensures g.status == Running && r.Failure? ==>
      r.error == Invalid(IntendedValidate(g.board, board, g.userChoice).value)
    ensures r.Success? ==> g.status == Running && r.value.userChoice == g.userChoice
    ensures r.Success? ==> forall k | 0 <= k < |g.board| && g.board[k] != EmptyCell ::
      k < |r.value.board| && r.value.board[k] == g.board[k]
  {
    if g.status != Running then Failure(GameOver)
    else
      match IntendedEdit(g.board, board, g.userChoice, idx)
      case Failure(reason) => Failure(Invalid(reason))
      case Success(h) =>
        EditKeepsMarks(g.board, board, g.userChoice, idx);
        Success(h)
  }

  /** An accepted corrected edit keeps every stored mark in place. */
  lemma EditKeepsMarks(oldBoard: string, board: string, userChoice: char, idx: nat)
    requires EditPickIntended(oldBoard, board, userChoice, idx)
    requires IntendedEdit(oldBoard, board, userChoice, idx).Success?
    ensures var h := IntendedEdit(oldBoard, board, userChoice, idx).value;
      forall k | 0 <= k < |oldBoard| && oldBoard[k] != EmptyCell :: k < |h.board| && h.board[k] == oldBoard[k]
  {
    var k :| LegalMove(oldBoard, board, userChoice, k);
    WriteMark(oldBoard, k, userChoice);
    if IntendedStatus(board) == Running {
      WriteMark(board, idx, Opponent(userChoice));
    }
  }
}

=== FILE: scenarios.dfy ===
/** The requests of the controller's test suite, replayed against the
    model.  The random index of an accepted move is fixed to one the
    generator can return. */
module Scenarios {
  import opened Wrappers
  import opened Board
  import opened GameStatusAsWritten
  import opened Engine
  import opened Detection
  import opened Classification

  // createNewGame

  lemma CreateShortBoard()
    ensures CreateGame("-", 0) == Failure(InvalidBoardFormat)
  {
  }

  lemma CreateWithoutMove()
    ensures CreateGame("---------", 0) == Failure(NoOpeningMove)
  {
    EmptyBoard();
  }

  lemma EmptyBoard()
    ensures FormatOk("---------") && StripEmpty("---------") == ""
  {
    assert RunAt("---------", 0);
    assert multiset("---------")[EmptyCell := 0] == multiset{};
  }

  lemma CreateFirstMove()
    ensures CreatePick("-X-------", 0)
    ensures CreateGame("-X-------", 0) == Success(Game("OX-------", Running, 'X'))
  {
    FirstMovePick();
    FirstMoveOpening();
    FirstMoveWrite();
    CreateOpening("-X-------", 0);
  }

  lemma FirstMovePick()
    ensures CreatePick("-X-------", 0)
  {
    FirstMoveOpening();
    FirstMoveIndex();
  }

  lemma FirstMoveIndex()
    ensures IndexOf("-X-------", 'X') == 1
  {
  }

  lemma FirstMoveWrite()
    ensures SetAt("-X-------", 0, 'O') == "OX-------"
  {
  }

  lemma FirstMoveOpening()
    ensures FormatOk("-X-------") && StripEmpty("-X-------") == "X"
  {
    var b := "-X-------";
    assert RunAt(b, 0);
    assert multiset(b)[EmptyCell := 0] == multiset{'X'};
    StripSingleton(b, 'X');
  }

  // editGame, accepted

  lemma EditMove()
    ensures EditPick("-------XO", "-O-----XO", 'O', 0)
    ensures EditGame("-------XO", "-O-----XO", 'O', 0) == Success(Game("XO-----XO", Running, 'O'))
  {
    EditMoveAccepted();
    EditMoveStatus();
    EditMoveWrite();
    assert "-O-----XO"[0] == EmptyCell;
    EditContinues("-------XO", "-O-----XO", 'O', 0);
  }

  lemma EditMoveAccepted()
    ensures Validate("-------XO", "-O-----XO", 'O') == None
  {
    assert RunAt("-O-----XO", 0);
    EditMoveKeeps();
    EditMoveMarks();
    Accepted("-------XO", "-O-----XO", 'O');
  }

  lemma EditMoveKeeps()
    ensures !Replaces("-------XO", "-O-----XO")
  {
    var prev, b := "-------XO", "-O-----XO";
    forall k: nat | k < |b|
      ensures !ReplacedAt(prev, b, k)
    {
      assert k == 0 || k == 1 || k == 2 || k == 3 || k == 4 || k == 5 || k == 6 || k == 7 || k == 8;
    }
  }

  lemma EditMoveMarks()
    ensures Count("-O-----XO", 'X') == 1 && Count("-O-----XO", 'O') == 2
  {
  }

  lemma EditMoveStatus()
    ensures GameStatus("-O-----XO") == Running && GameStatus("XO-----XO") == Running
  {
    assert Count("-O-----XO", EmptyCell) == 6;
    assert Count("XO-----XO", EmptyCell) == 5;
  }

  lemma EditMoveWrite()
    ensures SetAt("-O-----XO", 0, 'X') == "XO-----XO"
  {
  }

  lemma EditXWins()
    ensures EditPick("XX--O-OXO", "XXX-O-OXO", 'X', 0)
    ensures EditGame("XX--O-OXO", "XXX-O-OXO", 'X', 0) == Success(Game("XXX-O-OXO", XWon, 'X'))
  {
    XWinsAccepted();
    XWinsStatus();
    EditFinishes("XX--O-OXO", "XXX-O-OXO", 'X', 0);
  }

  lemma XWinsAccepted()
    ensures Validate("XX--O-OXO", "XXX-O-OXO", 'X') == None
  {
    assert RunAt("XXX-O-OXO", 0);
    XWinsKeeps();
    XWinsCounts();
    Accepted("XX--O-OXO", "XXX-O-OXO", 'X');
  }

  lemma XWinsKeeps()
    ensures !Replaces("XX--O-OXO", "XXX-O-OXO")
  {
    var prev, b := "XX--O-OXO", "XXX-O-OXO";
    forall k: nat | k < |b|
      ensures !ReplacedAt(prev, b, k)
    {
      assert k == 0 || k == 1 || k == 2 || k == 3 || k == 4 || k == 5 || k == 6 || k == 7 || k == 8;
    }
  }

  lemma XWinsCounts()
    ensures Count("XXX-O-OXO", 'X') == 4 && Count("XXX-O-OXO", 'O') == 3
    ensures Count("XXX-O-OXO", EmptyCell) == 2 && MovementsCount("XXX-O-OXO") == 7
  {
  }

  lemma XWinsStatus()
    ensures GameStatus("XXX-O-OXO") == XWon
  {
    XWinsCounts();
    CompleteRowWins("XXX-O-OXO", 'X', 0);
  }

  lemma EditDraw()
    ensures EditPick("OO-XOXX--", "OO-XOXX-X", 'X', 0)
    ensures EditGame("OO-XOXX--", "OO-XOXX-X", 'X', 0) == Success(Game("OO-XOXX-X", Draw, 'X'))
  {
    DrawAccepted();
    DrawStatus();
    EditFinishes("OO-XOXX--", "OO-XOXX-X", 'X', 0);
  }

  lemma DrawAccepted()
    ensures Validate("OO-XOXX--", "OO-XOXX-X", 'X') == None
  {
    assert RunAt("OO-XOXX-X", 0);
    DrawKeeps();
    DrawCounts();
    Accepted("OO-XOXX--", "OO-XOXX-X", 'X');
  }

  lemma DrawKeeps()
    ensures !Replaces("OO-XOXX--", "OO-XOXX-X")
  {
    var prev, b := "OO-XOXX--", "OO-XOXX-X";
    forall k: nat | k < |b|
      ensures !ReplacedAt(prev, b, k)
    {
      assert k == 0 || k == 1 || k == 2 || k == 3 || k == 4 || k == 5 || k == 6 || k == 7 || k == 8;
    }
  }

  lemma DrawCounts()
    ensures Count("OO-XOXX-X", 'X') == 4 && Count("OO-XOXX-X", 'O') == 3
  {
  }

  lemma DrawStatus()
    ensures GameStatus("OO-XOXX-X") == Draw
  {
    assert Count("OO-XOXX-X", EmptyCell) == 2;
    DrawNoX();
    DrawNoO();
    GameStatusExact("OO-XOXX-X");
  }

  lemma DrawNoX()
    ensures !DetectedSome("OO-XOXX-X", 'X')
  {
    DetectedSomeUnrolled("OO-XOXX-X", 'X');
  }

  lemma DrawNoO()
    ensures !DetectedSome("OO-XOXX-X", 'O')
  {
    DetectedSomeUnrolled("OO-XOXX-X", 'O');
  }

  // editGame, rejected

  lemma EditInvalidFormat()
    ensures Validate("-------XO", "-", 'O') == Some(InvalidBoardFormat)
    ensures EditPick("-------XO", "-", 'O', 0)
    ensures EditGame("-------XO", "-", 'O', 0) == Failure(InvalidBoardFormat)
  {
  }

  lemma EditWithoutMove()
    ensures Validate("-------XO", "-------XO", 'O') == Some(DidNotMove)
    ensures EditPick("-------XO", "-------XO", 'O', 0)
    ensures EditGame("-------XO", "-------XO", 'O', 0) == Failure(DidNotMove)
  {
    assert RunAt("-------XO", 0);
  }

  lemma EditReplacing()
    ensures Validate("-------XO", "-------OO", 'O') == Some(ReplacesValue)
    ensures EditPick("-------XO", "-------OO", 'O', 0)
    ensures EditGame("-------XO", "-------OO", 'O', 0) == Failure(ReplacesValue)
  {
    assert RunAt("-------OO", 0);
    assert ReplacedAt("-------XO", "-------OO", 7);
  }

  lemma EditOutOfTurn()
    ensures Validate("-------XO", "---X---XO", 'O') == Some(NotYourMove)
    ensures EditPick("-------XO", "---X---XO", 'O', 0)
    ensures EditGame("-------XO", "---X---XO", 'O', 0) == Failure(NotYourMove)
  {
    OutOfTurnRejected();
  }

  lemma OutOfTurnRejected()
    ensures Validate("-------XO", "---X---XO", 'O') == Some(NotYourMove)
  {
    assert RunAt("---X---XO", 0);
    OutOfTurnKeeps();
    OutOfTurnCounts();
  }

  lemma OutOfTurnKeeps()
    ensures !Replaces("-------XO", "---X---XO")
  {
    var prev, b := "-------XO", "---X---XO";
    forall k: nat | k < |b|
      ensures !ReplacedAt(prev, b, k)
    {
      assert k == 0 || k == 1 || k == 2 || k == 3 || k == 4 || k == 5 || k == 6 || k == 7 || k == 8;
    }
  }

  lemma OutOfTurnCounts()
    ensures Count("---X---XO", 'X') == 2 && Count("---X---XO", 'O') == 1
  {
  }
}

=== FILE: status.dfy ===
/** `getGameStatus` as written: the number of marks, the strings of decimal
    indices of the X and O cells, substring tests against the eight winning
    triples, and the length test that decides between DRAW and RUNNING. */
module GameStatusAsWritten {
  import opened Board

  datatype Status = Running | XWon | OWon | Draw

  /** The decimal digit d as a character. */
  function DigitChar(d: nat): (c: char)
    requires d < 10
    ensures '0' <= c <= '9'
  {
    ('0' as int + d) as char
  }

  /** `String(n)` for a non-negative integer: its decimal digits. */
  function Decimal(n: nat): (r: string)
    ensures 1 <= |r|
    ensures n < 10 <==> |r| == 1
    ensures forall k | 0 <= k < |r| :: '0' <= r[k] <= '9'
    decreases n
  {
    if n < 10 then [DigitChar(n)] else Decimal(n / 10) + [DigitChar(n % 10)]
  }

  /** The number a string of decimal digits denotes, most significant digit
      first. */
  function DigitsValue(s: string): nat
    requires forall k | 0 <= k < |s| :: '0' <= s[k] <= '9'
    decreases |s|
  {
    if s == [] then 0
    else DigitsValue(s[..|s| - 1]) * 10 + (s[|s| - 1] as int - '0' as int)
  }

  /** `String(n)` reads back as n: the characters are n's digits. */
  lemma {:induction false} DecimalValue(n: nat)
    ensures DigitsValue(Decimal(n)) == n
    decreases n
  {
    if n >= 10 {
      DecimalValue(n / 10);
      var r := Decimal(n);
      assert r[..|r| - 1] == Decimal(n / 10);
    }
  }

  /** The accumulator `xIndexes` (m = 'X') or `oIndexes` (m = 'O') after the
      `forEach` has visited the first n cells: each index holding m is
      appended in decimal. */
  function IndexString(arr: string, m: char, n: nat): string
    requires n <= |arr|
    decreases n
  {
    if n == 0 then ""
    else IndexString(arr, m, n - 1) + (if arr[n - 1] == m then Decimal(n - 1) else "")
  }

  /** The full accumulator after visiting every cell. */
  function Indexes(arr: string, m: char): string {
    IndexString(arr, m, |arr|)
  }

  /** needle occurs in hay starting at position i. */
  predicate OccursAt(hay: string, needle: string, i: nat) {
    i + |needle| <= |hay| && forall t | 0 <= t < |needle| :: hay[i + t] == needle[t]
  }

  /** `hay.includes(needle)`. */
  predicate Includes(hay: string, needle: string) {
    exists i: nat | i + |needle| <= |hay| :: OccursAt(hay, needle, i)
  }

  /** The eight triples the controller looks for, in the order it tests them. */
  const Patterns: seq<string> := ["012", "048", "036", "147", "258", "345", "678", "246"]

  /** The `||` chain of `includes` tests. */
  predicate DetectsWin(indexes: string) {
    exists k | 0 <= k < |Patterns| :: Includes(indexes, Patterns[k])
  }

  /** `movementsCount`: the number of characters that are not the empty cell. */
  function MovementsCount(arr: string): nat {
    |StripEmpty(arr)|
  }

  /** `getGameStatus(arr)`. */
  function GameStatus(arr: string): (r: Status)
    ensures MovementsCount(arr) < 5 ==> r == Running
    ensures r == Draw ==> |arr| == 9
  {
    if MovementsCount(arr) < 5 then Running
    else if DetectsWin(Indexes(arr, 'X')) then XWon
    else if DetectsWin(Indexes(arr, 'O')) then OWon
    else if |arr| == 9 then Draw
    else Running
  }
}

=== FILE: wrappers.dfy ===
/** Wrappers shared by the engine: an optional value and a value-or-reason
    result. */
module Wrappers {

  datatype Option<+T> = None | Some(value: T)

  datatype Result<+T, +E> = Success(value: T) | Failure(error: E)
}
